=== FILE: README.md ===
# Hydra processor core and query layer, in Dafny

This project models four pieces of the Hydra indexing framework and proves
properties about them.

- **State keeper** (`hydra-processor`): where mapping processing resumes
  after a restart (`initState`). It also covers how each progress update is
  merged, clamped to the last processed event's block, written as a
  `processed_events_log` row and announced as a `STATE_CHANGE`. And it
  covers how a `PROCESSED_EVENT` notification moves the last processed event.
- **Mappings processor** (`hydra-processor`): the processing loop as a step
  function. Each iteration runs the hook blocks between the checkpoint and
  the next event block, then the event block. `processBlock` executes a
  block, moves the checkpoint through the state callback and announces its
  events. A failing queue or block stops the processor. `start`, `stop` and
  `stopped` are modelled too. The block queue and the executor are
  parameters. `Tick` says what the queue's `next()` resolved to, and whether
  the runner called `stop()` during that iteration. `hooks`
  says which blocks `blocksWithHooks` yields for a range, and whether it
  then throws. `exec` says whether the executor committed a block, threw
  before the state callback, or threw after it.
- **Query layer** (`warthog`'s `HydraBaseService`):
  - `buildFindQueryWithParams`: page size and offset, the selected columns,
    the ordering, the soft-delete default, and the recursive AND/OR
    bracketing of the WHERE part with its numbered bound parameters.
  - `parseOrderBy`, `addOrderBy`, `orderByFields` and `isLastBefore`.
  - The planning and trimming arithmetic of `findConnection`.

  The query is produced as a tree (`WhereQuery.Query`). What one comparison
  means for a record is a parameter `holds`. That lets the model state the
  meaning of the built query against `WhereQuery.Matches`, a reading of
  the filter object given on the object itself.
- **Type generator flags** (`hydra-typegen`): `parseFlags`. Comma-separated
  lists are split and trimmed, metadata sources are paired by position
  with block hashes, and custom types need `--typelib`.

Modules: `Wrappers` (`Option`, `Result`, JavaScript `||` on numbers and
string truthiness) and `Strings` (`split`, `join`, `trim`, ASCII case
mapping, decimal rendering) support `StateKeeper`, `MappingsProcessor`,
`WhereQuery`, `HydraBaseService` and `TypegenFlags`.

Where the code and its documentation disagree, the model follows the code:
- The clamp in `updateState` compares the requested block only with the
  last processed event's block, not with the current checkpoint. So a
  stale request moves the checkpoint backwards
  (`StateKeeper.StaleUpdateMovesBackwards`).
- Repeating an update is a no-op only when the first one was not raised by
  the clamp (`StateKeeper.RepeatedUpdateWritesOnce`).
- A `{}` member of an AND or OR list is discarded. It is not read as true
  or as false (`WhereQuery.EmptyAndMemberDiscarded`,
  `WhereQuery.EmptyOrMemberDiscarded`).
- `findConnection` always throws, because the query it calls
  (`buildFindWithRelationsQuery`) is not implemented. Only the
  computation leading up to that call, and the final trimming, are
  modelled.

## Model

| member | source | states |
|---|---|---|
| StateKeeper.InitState | packages/hydra-processor/src/state/StateKeeper.ts:137-183 | With no saved state, processing starts just before the range with event 0-0. Otherwise the checkpoint is resumed, or raised to the block before the range start, and the saved event is kept. It fails exactly when the saved block is at or past both ends of the range. On success the next block to scan lies in a non-empty range, and consistency is preserved. |
| StateKeeper.UpdateState | packages/hydra-processor/src/state/StateKeeper.ts:65-100 | A request for the current scanned block changes nothing. Any other request merges the fields with `\|\|` and clamps the scanned block up to the event's height minus one. It then appends exactly one log row (through the transaction when one is given) and one state change, and leaves the result consistent. |
| StateKeeper.UpdateStateNullish | packages/hydra-processor/src/state/StateKeeper.ts:73-78 | The corrected merge, where an absent field falls back to the current value. The requested scanned block is never lost (the result is at least the request), with the same write, announcement and consistency guarantees. |
| StateKeeper.UpdateStateAgreesAwayFromZero | packages/hydra-processor/src/state/StateKeeper.ts:73-78 | The as-written and corrected merges agree on every request except a scanned block of 0. |
| StateKeeper.ZeroRequestIsDropped | packages/hydra-processor/src/state/StateKeeper.ts:76-77 | From a fresh start of a range beginning at 0, requesting block 0 writes a row but leaves the checkpoint at -1. The corrected merge moves it to 0. |
| StateKeeper.RepeatedUpdateWritesOnce | packages/hydra-processor/src/state/StateKeeper.ts:69-71 | Suppose a non-zero request is not below the event's height minus one. Then it is taken as is, and repeating it writes nothing. |
| StateKeeper.StaleUpdateMovesBackwards | packages/hydra-processor/src/state/StateKeeper.ts:80-85 | A request below the current checkpoint moves it backwards, down to the clamp. A repeated request that the clamp raised writes a second row. |
| StateKeeper.Accept | packages/hydra-processor/src/state/StateKeeper.ts:82-99 | The accepted state has the given event and a scanned block at least the requested one and at least the event's height minus one. Exactly one row describing it and one state change are appended. |
| StateKeeper.OnIndexerStatus | packages/hydra-processor/src/state/StateKeeper.ts:29-37 | A status reported for the keeper's own chain replaces the status it holds; a report for another chain leaves the keeper as it was. State, rows and announced changes are never touched. |
| StateKeeper.StatusFeedsNextRow | packages/hydra-processor/src/state/StateKeeper.ts:89-92 | The next row written carries the heads of the last status reported for the keeper's own chain, not those of another chain's report. |
| StateKeeper.OnProcessedEvent | packages/hydra-processor/src/state/StateKeeper.ts:56-61 | For the keeper that hears it, only the in-memory last processed event changes. No row is written and no state change is announced. Consistency holds when the event lies at most one block past the checkpoint. |
| StateKeeper.BroadcastProcessed | packages/hydra-processor/src/state/StateKeeper.ts:56-61 | As delivered when several chains share the process: every chain's keeper takes the event as its last processed event. Its checkpoint, chain and rows stay as they were. |
| StateKeeper.DeliverProcessed | packages/hydra-processor/src/state/StateKeeper.ts:29-61 | The corrected, chain-filtered delivery, filtering the way the indexer status listener does. Keepers of other chains are untouched. The emitting chain's keeper takes the event without writing or announcing anything. |
| StateKeeper.ForeignEventSkipsBlocks | packages/hydra-processor/src/state/StateKeeper.ts:56-61 | Keeper `b` is at block 10. When chain `a` emits event 5000-0, the broadcast makes `b` inconsistent, and its next update to block 11 lands on 4999. The filtered delivery leaves `b` untouched, and the update lands on 11. |
| StateKeeper.DeliverKeepsConsistent | packages/hydra-processor/src/state/StateKeeper.ts:56-61 | With filtered delivery, an event at most one block past its own chain's checkpoint keeps every keeper consistent. |
| StateKeeper.Init | packages/hydra-processor/src/state/StateKeeper.ts:102-126 | A chain without a mapping fails. Otherwise `init` succeeds exactly when `initState` does, starts from its state with an empty log, and announces that state once. |
| MappingsProcessor.Start | packages/hydra-processor/src/process/MappingsProcessor.ts:27-36 | A started processor is not stopped, its queue is not stopped, and it has executed and announced nothing. |
| MappingsProcessor.Stop | packages/hydra-processor/src/process/MappingsProcessor.ts:38-45 | After `stop`, the processor reports stopped and the queue is stopped. Its keeper and progress are unchanged. |
| MappingsProcessor.OnStateUpdate | packages/hydra-processor/src/process/MappingsProcessor.ts:101-107 | The state callback requests the block's height as the scanned block. It runs in the context's transaction exactly when the context is transaction-aware. |
| MappingsProcessor.EmitProcessed | packages/hydra-processor/src/process/MappingsProcessor.ts:109-112 | Announcing a block's events one by one to this chain's keeper leaves the last one as its last processed event. Nothing else changes. |
| MappingsProcessor.EmitIsFilteredDelivery | packages/hydra-processor/src/process/MappingsProcessor.ts:109-112 | What the processor's keeper hears is the chain-filtered delivery (`StateKeeper.DeliverProcessed`), not the broadcast. |
| MappingsProcessor.ProcessBlock | packages/hydra-processor/src/process/MappingsProcessor.ts:94-115 | As written, with the `\|\|` merge. A throw before the state callback changes nothing. A throw after it aborts the block but leaves the in-memory checkpoint moved: there is no row when the save failed or ran inside the rolled-back transaction, and no state change unless it was announced. A commit executes the block's height and announces its events, in order, writing at most one row. The checkpoint then reaches the block, except at height 0, where it only does not move back. |
| MappingsProcessor.ProcessBlockNullish | packages/hydra-processor/src/process/MappingsProcessor.ts:94-115 | The corrected block, using the `??` merge: a committed or partly run block moves the checkpoint to at least its height, height 0 included. |
| MappingsProcessor.ProcessBlockAgreesAwayFromZero | packages/hydra-processor/src/process/MappingsProcessor.ts:102-106 | Away from height 0, the as-written and corrected blocks give the same result. |
| MappingsProcessor.GenesisBlockRerun | packages/hydra-processor/src/process/MappingsProcessor.ts:63-67 | For a range starting at 0, after a fresh start, committing block 0 writes a row but leaves the checkpoint at -1, so the next hook lookup starts at block 0 again. The corrected block moves the checkpoint to 0. |
| MappingsProcessor.FailedSaveAdvancesCheckpoint | packages/hydra-processor/src/state/StateKeeper.ts:73-98 | Suppose block 5's save fails inside its transaction. The block is aborted without a row or state change and is not counted as executed. Yet the in-memory checkpoint is already at 5. |
| MappingsProcessor.ProcessBlockKeepsConsistent | packages/hydra-processor/src/process/MappingsProcessor.ts:99-112 | A block whose events carry its height leaves a consistent checkpoint consistent. |
| MappingsProcessor.ProcessBlocks | packages/hydra-processor/src/process/MappingsProcessor.ts:69-74 | The run aborts exactly when some block fails. Exactly the blocks before the first such block are executed and announced, in order. |
| MappingsProcessor.ProcessBlocksAppend | packages/hydra-processor/src/process/MappingsProcessor.ts:69-84 | Running the hook blocks and then the event block is running their concatenation. |
| MappingsProcessor.ProcessBlocksKeepsConsistent | packages/hydra-processor/src/process/MappingsProcessor.ts:69-74 | Well-formed blocks keep the checkpoint consistent. |
| MappingsProcessor.FailureIndex | packages/hydra-processor/src/process/MappingsProcessor.ts:69-84 | The index of the first block that does not commit is at most the number of blocks. When it is less, the block at that index failed. |
| MappingsProcessor.CommittedBeforeFailure | packages/hydra-processor/src/process/MappingsProcessor.ts:69-84 | Every block before the failure index commits. |
| MappingsProcessor.HookRange | packages/hydra-processor/src/process/MappingsProcessor.ts:63-67 | Hook blocks are looked up from just after the checkpoint. The range ends before the event block, or at the mapping range's end once the stream is done. |
| MappingsProcessor.Iterate | packages/hydra-processor/src/process/MappingsProcessor.ts:55-89 | A failing queue stops the processor and faults. A missing mapping ends the loop unchanged. Otherwise the yielded hook blocks run, then the event block unless the hook stream threw, all as one sequence. The iteration faults (and stops) exactly when that run aborts or the hook stream throws. It continues exactly when the run completes with an event block. |
| MappingsProcessor.IterateRunsPlanPrefix | packages/hydra-processor/src/process/MappingsProcessor.ts:63-89 | An iteration faults exactly when some planned block fails or the hook stream throws. It executes and announces exactly the planned blocks before the first failing block. |
| MappingsProcessor.IterateKeepsConsistent | packages/hydra-processor/src/process/MappingsProcessor.ts:55-89 | An iteration over well-formed blocks keeps the checkpoint consistent. |
| MappingsProcessor.IterateCommitting | packages/hydra-processor/src/process/MappingsProcessor.ts:69-84 | With an executor that always commits and a hook stream that does not throw, an iteration towards an event block runs its whole plan and continues. |
| MappingsProcessor.HookRangeScenario | packages/hydra-processor/src/process/MappingsProcessor.ts:63-84 | From checkpoint 120 with event block 125, blocks 121 to 124 run as hook blocks before block 125, and only block 125's event is announced. |
| MappingsProcessor.Loop | packages/hydra-processor/src/process/MappingsProcessor.ts:48-92 | The loop condition is checked before every iteration, including after a `stop()` that arrived during the previous one. A rethrown error leaves the processor stopped, and a waiting loop is still started. Executed blocks and announced events are only ever appended to. |
| MappingsProcessor.StopRequestEndsLoop | packages/hydra-processor/src/process/MappingsProcessor.ts:38-49 | A `stop()` that arrives while an iteration is in flight lets that iteration run its hook blocks and event block. The loop then ends, stopped, at the next check of its condition. Nothing more is executed or announced. |
| MappingsProcessor.LoopKeepsConsistent | packages/hydra-processor/src/process/MappingsProcessor.ts:48-92 | The loop keeps the checkpoint consistent as long as every block it is handed is well formed. |
| WhereQuery.SplitKeyShape | packages/warthog/src/core/HydraBaseService.ts:95-98 | A filter key's field and operator are its first two `_`-separated segments. The operator defaults to `eq` exactly for keys without `_`. |
| WhereQuery.SplitKeyOfFieldOp | packages/warthog/src/core/HydraBaseService.ts:95-98 | A key written as `<field>_<operator>` splits back into that field and operator. |
| WhereQuery.LeafConds | packages/warthog/src/core/HydraBaseService.ts:86-109 | Each entry adds one comparison and advances the parameter counter by one. |
| WhereQuery.LeafCondsEach | packages/warthog/src/core/HydraBaseService.ts:91-106 | The i-th comparison is built from the i-th entry with parameter counter + i. |
| WhereQuery.LeafCondsMeaning | packages/warthog/src/core/HydraBaseService.ts:86-109 | The comparisons hold exactly when every entry of the filter object holds. |
| WhereQuery.BracketedEmpty | packages/warthog/src/core/HydraBaseService.ts:123-125 | An AND or OR list adds no bracket exactly when every member is `{}`. |
| WhereQuery.BracketedAll | packages/warthog/src/core/HydraBaseService.ts:123-141 | The brackets of an AND list hold exactly when every member matches. |
| WhereQuery.BracketedSome | packages/warthog/src/core/HydraBaseService.ts:144-163 | Some bracket of an OR list holds exactly when some non-empty member matches. |
| WhereQuery.AndGroupMeaning | packages/warthog/src/core/HydraBaseService.ts:123-142 | The AND key's condition holds exactly when every AND member matches. |
| WhereQuery.OrGroupMeaning | packages/warthog/src/core/HydraBaseService.ts:144-164 | The OR key's condition holds exactly when all OR members are `{}` or some non-empty one matches. |
| WhereQuery.CondsMeaning | packages/warthog/src/core/HydraBaseService.ts:117-170 | The conditions built from a filter object hold of a record exactly when the object matches it. |
| WhereQuery.CondsKeys | packages/warthog/src/core/HydraBaseService.ts:83-94 | The bound parameters are `prefix+counter` onwards, numbered consecutively in tree order. |
| WhereQuery.ApplySoftDelete | packages/warthog/src/core/HydraBaseService.ts:68-81 | Without any `deletedAt_` key, `deletedAt_eq: null` is added. A `deletedAt_all` key is removed and the rest kept. Any other `deletedAt_` filter is kept as written. AND and OR are untouched. |
| WhereQuery.SoftDeletedHiddenByDefault | packages/warthog/src/core/HydraBaseService.ts:68-73 | Without a `deletedAt_` key, the filter matches exactly the records it matched before whose `deletedAt` equals null. |
| WhereQuery.BuildWhere | packages/warthog/src/core/HydraBaseService.ts:83-94 | No two comparisons of the built WHERE part share a bound parameter. |
| WhereQuery.BuildWhereMeaning | packages/warthog/src/core/HydraBaseService.ts:68-174 | The built WHERE part holds of a record exactly when the filter, after the soft-delete default, matches it. |
| WhereQuery.EmptyAndMemberDiscarded | packages/warthog/src/core/HydraBaseService.ts:124-131 | `{AND: [{}, x]}` means the same as `x`. |
| WhereQuery.EmptyOrMemberDiscarded | packages/warthog/src/core/HydraBaseService.ts:145-152 | `{OR: [{}, x]}` with a non-empty `x` means the same as `x`. |
| HydraBaseService.PagingOf | packages/warthog/src/core/HydraBaseService.ts:33-45 | A missing or zero limit takes 50 rows, and the take is never 0. A missing or zero offset is not applied. |
| HydraBaseService.WithId | packages/warthog/src/core/HydraBaseService.ts:49-51 | `fields` afterwards contains `id`, extends the input by at most one entry, and is unchanged when `id` was present. |
| HydraBaseService.OtherColumns | packages/warthog/src/core/HydraBaseService.ts:56-63 | Every further selected entry is a requested field that is a column and not `id`, with its alias. |
| HydraBaseService.OtherColumnsComplete | packages/warthog/src/core/HydraBaseService.ts:56-63 | Every requested column other than `id` is selected. |
| HydraBaseService.Selection | packages/warthog/src/core/HydraBaseService.ts:47-64 | `id` is selected first with its alias. Every later entry is a requested column other than `id`. |
| HydraBaseService.SelectionComplete | packages/warthog/src/core/HydraBaseService.ts:47-64 | Every requested field that is a column is selected. |
| HydraBaseService.ParseItems | packages/warthog/src/core/HydraBaseService.ts:294-302 | Parsing succeeds exactly when every item contains `_`. Otherwise it fails on the first item without one. Each attribute is the part before the first `_`, and each direction is the second segment lower-cased. |
| HydraBaseService.ParseOrderBy | packages/warthog/src/core/HydraBaseService.ts:284-305 | A missing or empty order-by gives no items, and a single string is one item. On success, attributes and directions match the items one for one. |
| HydraBaseService.ParseOrderByRoundTrip | packages/warthog/src/core/HydraBaseService.ts:284-305 | Items written as `<attr>_<dir>` parse back to the attributes and the lower-cased directions. |
| HydraBaseService.AddOrderBy | packages/warthog/src/core/HydraBaseService.ts:267-282 | Ordering fails exactly when parsing does. Otherwise each item orders by its attribute's column, in the item's direction upper-cased. |
| HydraBaseService.OrderByFields | packages/warthog/src/core/HydraBaseService.ts:307-315 | A missing order-by gives no fields. Otherwise each item gives one field: the item up to its first `_`, which contains no `_`. |
| HydraBaseService.OrderByFieldsMatchParse | packages/warthog/src/core/HydraBaseService.ts:284-315 | When parsing succeeds on anything but the empty string, the order-by fields are the parsed attributes. |
| HydraBaseService.EmptyOrderByDisagrees | packages/warthog/src/core/HydraBaseService.ts:289-314 | For the empty string, `parseOrderBy` gives no attributes, while `orderByFields` gives one empty field. |
| HydraBaseService.BuildFindQueryWithParams | packages/warthog/src/core/HydraBaseService.ts:25-177 | It fails exactly when the order-by does not parse. On success the paging is `PagingOf`'s, the selection is `Selection`'s (`id` first), and `fields` becomes `WithId`'s. The order is `AddOrderBy`'s, `where` gets the soft-delete default, and no two comparisons share a bound parameter. |
| HydraBaseService.BuildFindQueryMeaning | packages/warthog/src/core/HydraBaseService.ts:66-174 | The built query's conditions hold exactly when the filter, after the soft-delete default, matches. |
| HydraBaseService.PlanConnection | packages/warthog/src/core/HydraBaseService.ts:189-248 | Base options are rejected. Paging is backward exactly when `last` is given (`isLastBefore`, lines 317-321). A zero or missing count means 50, and the page and cursor are taken from the chosen direction. One row more than the limit is fetched, and the total count uses the user's filter alone. |
| HydraBaseService.PlanConnectionFilter | packages/warthog/src/core/HydraBaseService.ts:226-233 | The page filter matches exactly when the user's filter matches and, with a truthy cursor, the cursor's filter matches too. |
| HydraBaseService.SliceTo | packages/warthog/src/core/HydraBaseService.ts:252 | `slice(0, end)` is a prefix. Its length is `min(end, n)` for `end >= 0` and `max(n + end, 0)` otherwise. |
| HydraBaseService.TrimPage | packages/warthog/src/core/HydraBaseService.ts:252 | The returned rows are a prefix of those fetched. Up to `limit` rows are returned unchanged, and more are cut to `limit`. |
| HydraBaseService.TrimDropsOnlyTheExtraRow | packages/warthog/src/core/HydraBaseService.ts:238-252 | Given at most limit + 1 rows, at most one row is dropped. One is dropped exactly when the extra row arrived, and at most `limit` rows remain. |
| TypegenFlags.CommaList | packages/hydra-typegen/src/commands/typegen/index.ts:141-154 | An absent or empty flag gives no items. Otherwise there is one item per comma-separated piece: the i-th item is the i-th piece, trimmed, so it is trimmed and comma-free. |
| TypegenFlags.CommaListRoundTrip | packages/hydra-typegen/src/commands/typegen/index.ts:141-154 | Trimmed, comma-free items joined with commas parse back to themselves. |
| TypegenFlags.PairSources | packages/hydra-typegen/src/commands/typegen/index.ts:156-159 | Each source keeps its position. It has a block hash exactly when the hash at the same position exists and is non-empty, and then it is that hash. |
| TypegenFlags.ParseFlags | packages/hydra-typegen/src/commands/typegen/index.ts:127-169 | It fails exactly when typedefs are given without a typelib. Otherwise custom types are present exactly when typedefs are given. Events, calls and sources are the parsed lists, and the output directory and strictness are copied. |
| TypegenFlags.ParseFlagsPairsHashes | packages/hydra-typegen/src/commands/typegen/index.ts:152-159 | Source i carries the i-th block hash exactly when that piece exists and is non-empty. |
| TypegenFlags.SingleMetadataSource | packages/hydra-typegen/src/commands/typegen/index.ts:148-168 | A single trimmed metadata source without block hashes or typedefs yields exactly one source without a hash, and no custom types. |
| Strings.Split | packages/warthog/src/core/HydraBaseService.ts:96 | `split` gives one more piece than there are separators, none of which contains the separator. |
| Strings.SplitThenJoin | packages/warthog/src/core/HydraBaseService.ts:96 | Joining the pieces of a split gives the input back. |
| Strings.FirstSegment | packages/warthog/src/core/HydraBaseService.ts:314 | `split(sep)[0]` is the part before the first separator, or the whole string. |
| Strings.Trim | packages/hydra-typegen/src/commands/typegen/index.ts:142 | `trim` gives a trimmed string that the input pads with white space on both sides. |
| Strings.TrimIsUnique | packages/hydra-typegen/src/commands/typegen/index.ts:142 | That trimmed string is the only one the input pads. |
| Strings.UpperOfLower | packages/warthog/src/core/HydraBaseService.ts:279 | Upper-casing a lower-cased direction is upper-casing it directly. |
| Strings.NatToDecimal | packages/warthog/src/core/HydraBaseService.ts:92 | `${counter}` is a non-empty string of digits without a leading zero. |
| Strings.DecimalRoundTrip | packages/warthog/src/core/HydraBaseService.ts:92 | The rendered digits denote the counter. |

## Findings

| source | as written | input that shows it | evidently intended | confidence | as-written member | corrected member |
|---|---|---|---|---|---|---|
| packages/hydra-processor/src/state/StateKeeper.ts:76-77 | The requested `lastScannedBlock` is merged with `\|\|`, so a request of 0 falls back to the current value. | A mapping range starting at 0, a fresh start (checkpoint -1), and the callback for block 0 requesting `lastScannedBlock: 0`. A row is written, but the checkpoint stays at -1. | An absent field falls back (`??`), so block 0 is recorded as scanned. | not executed | StateKeeper.ZeroRequestIsDropped | StateKeeper.UpdateStateNullish |
| packages/hydra-processor/src/process/MappingsProcessor.ts:102-106 | Through that merge, committing block 0 leaves the checkpoint at -1. | The same fresh start: after block 0 commits, the next hook lookup range starts at 0, so hook block 0 is looked up again. A restart also resumes from block 0. | The checkpoint reaches every committed block. | not executed | MappingsProcessor.GenesisBlockRerun | MappingsProcessor.ProcessBlockNullish |
| packages/hydra-processor/src/state/StateKeeper.ts:56-61 | The `PROCESSED_EVENT` listener has no chain filter, and the emit (MappingsProcessor.ts lines 110-112) carries no chain. The runner starts one processor per chain in the same process (ProcessorRunner.ts lines 48-52). | Two chains. Keeper `b` is at block 10 with event 10-0. Chain `a` emits 5000-0, and `b` takes it. `b`'s next update to block 11 is clamped to 4999, skipping blocks 12 to 4999 of its chain. | Each keeper takes only its own chain's events, as the indexer status listener (lines 29-37) does. | not executed | StateKeeper.ForeignEventSkipsBlocks | StateKeeper.DeliverProcessed |

The loop (`ProcessBlocks`, `Iterate`, `Loop`) is built on the as-written
`MappingsProcessor.ProcessBlock`.
`MappingsProcessor.ProcessBlockAgreesAwayFromZero` shows that it equals the
corrected `MappingsProcessor.ProcessBlockNullish` on every block except
height 0. So the loop's properties carry over to the corrected block for
ranges that start above 0. `StateKeeper.UpdateStateAgreesAwayFromZero`
likewise shows that the two merges differ on nothing else.

The loop runs one chain. Its keeper hears the chain's own events only,
which is the corrected delivery (`MappingsProcessor.EmitIsFilteredDelivery`).
The delivery as written is `StateKeeper.BroadcastProcessed`.

## Left out

- Logging, the Prometheus client, debug output and the throttled status log: they have no effect on state.
- The processor runner, the block queue and the ingest client: the queue is a parameter (`Tick`, `hooks`). Its internals are not part of this model.
- The mapping executor: a parameter (`exec`). On commit it is assumed to have called the state callback exactly once. A throw either comes before the callback, with no effect, or after it (`ThrewAfterUpdate`), when the keeper's in-memory update has already happened. Which of the handlers' entity writes were rolled back is not modelled.
- Database access (`loadState`, repositories, the DAL), caching and the naming strategy. A saved row is recorded in the keeper's log, and the transaction is an opaque handle.
- The indexer version check and the indexer status request in `init`: the status is a parameter. Status notifications are modelled by `StateKeeper.OnIndexerStatus`, but they are not part of `MappingsProcessor.Tick`, so inside the loop the status stays fixed between the notifications a caller applies.
- `Promise.all` in `start`: the queue and the loop run concurrently in the code. Here the loop is a function of what the queue delivered.
- `SubstrateEvent` ids as strings: they are modelled as (height, index) pairs of natural numbers, so `parseEventId` and `formatEventId` are the identity. Block heights are natural numbers too.
- MappingsProcessor.EmitProcessed: delivers each event to this chain's keeper only (the corrected delivery). Inside the loop, the model does not promise what the program does with several chains, where every chain's keeper takes the event. That behaviour is modelled only by `StateKeeper.BroadcastProcessed`.
- The hook stream's failure point: `hooks` yields its blocks and then throws or ends. Whether a stream would fail differently because blocks ran in between is not modelled.
- `findConnection` beyond planning: the query it needs always throws "Not implemented", so cursor encoding, sort normalisation, page info and the query results are not modelled. Only the page rows are trimmed (`TrimPage`).
- WhereQuery.Bracketed: an AND or OR member that is not `{}` may still produce no condition, for example `{AND: []}` or `{OR: [{}]}`. The code still wraps such a member in a bracket with no condition. The model reads that empty bracket as true. What the query builder renders for an empty bracket is not part of this model.
- `addQueryBuilderWhereItem`: the SQL produced for each operator is not modelled. A comparison is a `Leaf`, and its meaning is the parameter `holds`.
- `Object.keys` order: the entries of a filter object are taken in the order given. JavaScript's rule that integer-like keys come first is not modelled.
- Filter values that are `undefined`: an entry whose value is `undefined` counts as a key but is dropped by `JSON.stringify`. The model has no `undefined` value, so both emptiness tests coincide.
- HydraBaseService.AddOrderBy: the "Number of attributes and sorting directions must match" error is not modelled, because `parseOrderBy` always returns lists of equal length.
- HydraBaseService.BuildFindQueryWithParams: when the order-by does not parse, the code has already pushed `id` onto the caller's `fields` (in place) before throwing. The model's failure result does not carry that mutated `fields`.
- HydraBaseService.ParseItems: an item without `_` throws a `TypeError` in the code (reading `toLowerCase` of `undefined`). The model returns `MissingDirection` naming the item instead.
- Strings.ToLower: only ASCII letters are case-mapped. Unicode case mapping is not modelled.
- Strings.ToUpper: likewise ASCII only.
- The rest of the type generator (metadata fetching, code generation, validation) and the polkassembly links: they are outside this model.
- Strings: a `char` is a Unicode scalar value, whereas JavaScript strings are UTF-16 code units. Surrogate pairs and lone surrogates are not modelled. The separators and white space involved are all single code units.
- Integer widths: JavaScript numbers are modelled as unbounded integers. Block heights and counters stay far below 2^53.

=== FILE: hydra_base_service.dfy ===
/** The query layer's reading of a list request: page size and offset,
    selected columns, ordering and the WHERE part of
    `buildFindQueryWithParams`, the order-by parsers, and the planning and
    trimming arithmetic of `findConnection`. The query builder is replaced by
    the description of the query it is handed. */
module HydraBaseService {
  import opened Wrappers
  import opened Strings
  import opened WhereQuery

  const DefaultLimit := 50

  /** `LimitOffset` page options; an absent field is `None`. */
  datatype LimitOffset = LimitOffset(limit: Option<int>, offset: Option<int>)

  /** What the query builder is given for `take` and `skip`. */
  datatype Paging = Paging(take: int, skip: Option<int>)

  /** A falsy or missing limit means 50 rows; a falsy offset is not applied. */
  function PagingOf(pageOptions: Option<LimitOffset>): (r: Paging)
    ensures r.take != 0
    ensures pageOptions.None? ==> r == Paging(DefaultLimit, None)
    ensures pageOptions.Some? ==>
      var o := pageOptions.value;
      && (o.limit.Some? && o.limit.value != 0 ==> r.take == o.limit.value)
      && (o.limit.None? || o.limit.value == 0 ==> r.take == DefaultLimit)
      && (r.skip.Some? <==> o.offset.Some? && o.offset.value != 0)
      && (r.skip.Some? ==> r.skip == o.offset)
  {
    var o := pageOptions.GetOr(LimitOffset(Some(DefaultLimit), None));
    Paging(OrElse(o.limit, DefaultLimit), if o.offset.Some? && o.offset.value != 0 then o.offset else None)
  }

  /** One selected column: the entity attribute and its alias. */
  datatype Selected = Selected(field: string, alias: Option<string>)

  /** The caller's `fields` after `fields.push('id')` when `id` was missing. */
  function WithId(fields: seq<string>): (r: seq<string>)
    ensures "id" in r
    ensures fields <= r && |r| <= |fields| + 1
    ensures "id" in fields ==> r == fields
  {
    if "id" in fields then fields else fields + ["id"]
  }

  /** The columns selected after `id`: the requested fields that are
      columns of the entity, other than `id`, in request order. */
  function OtherColumns(fields: seq<string>, isColumn: string -> bool,
                        aliases: string -> Option<string>): (r: seq<Selected>)
    ensures |r| <= |fields|
    ensures forall i :: 0 <= i < |r| ==>
      && r[i].field in fields && r[i].field != "id" && isColumn(r[i].field)
      && r[i].alias == aliases(r[i].field)
  {
    if |fields| == 0 then []
    else
      var rest := OtherColumns(fields[1..], isColumn, aliases);
      var head := if fields[0] != "id" && isColumn(fields[0]) then [Selected(fields[0], aliases(fields[0]))] else [];
      assert forall i :: 0 <= i < |rest| ==> (head + rest)[|head| + i] == rest[i];
      assert forall f :: f in fields[1..] ==> f in fields;
      head + rest
  }

  /** No requested column other than `id` is left out. */
  lemma {:induction false} OtherColumnsComplete(fields: seq<string>, isColumn: string -> bool,
                                                aliases: string -> Option<string>, f: string)
    requires f in fields && f != "id" && isColumn(f)
    ensures exists i :: 0 <= i < |OtherColumns(fields, isColumn, aliases)| &&
                        OtherColumns(fields, isColumn, aliases)[i].field == f
  {
    var r := OtherColumns(fields, isColumn, aliases);
    var rest := OtherColumns(fields[1..], isColumn, aliases);
    var head := if fields[0] != "id" && isColumn(fields[0]) then [Selected(fields[0], aliases(fields[0]))] else [];
    assert r == head + rest;
    if f == fields[0] {
      assert r[0].field == f;
    } else {
      assert f in fields[1..] by {
        var k :| 0 <= k < |fields| && fields[k] == f;
        assert fields[1..][k - 1] == f;
      }
      OtherColumnsComplete(fields[1..], isColumn, aliases, f);
      var i :| 0 <= i < |rest| && rest[i].field == f;
      assert r[|head| + i].field == f;
    }
  }

  /** The selection for a field list: `id` first, exactly once, then the
      requested columns; relations (non-columns) are left out. */
  function Selection(fields: seq<string>, isColumn: string -> bool,
                     aliases: string -> Option<string>): (r: seq<Selected>)
    ensures |r| >= 1 && r[0] == Selected("id", aliases("id"))
    ensures forall i :: 1 <= i < |r| ==>
      r[i].field != "id" && r[i].field in WithId(fields) && isColumn(r[i].field)
  {
    var others := OtherColumns(WithId(fields), isColumn, aliases);
    var r := [Selected("id", aliases("id"))] + others;
    assert forall i :: 0 <= i < |others| ==> r[i + 1] == others[i];
    r
  }

  /** Every requested column is selected. */
  lemma SelectionComplete(fields: seq<string>, isColumn: string -> bool,
                          aliases: string -> Option<string>, f: string)
    requires f in fields && isColumn(f)
    ensures exists i :: 0 <= i < |Selection(fields, isColumn, aliases)| &&
                        Selection(fields, isColumn, aliases)[i].field == f
  {
    var r := Selection(fields, isColumn, aliases);
    if f == "id" {
      assert r[0].field == f;
    } else {
      var others := OtherColumns(WithId(fields), isColumn, aliases);
      assert f in WithId(fields);
      OtherColumnsComplete(WithId(fields), isColumn, aliases, f);
      var i :| 0 <= i < |others| && others[i].field == f;
      assert r[i + 1] == others[i];
    }
  }

  /** The `orderBy` argument: one `attr_dir` string or a list of them;
      `None` is `undefined`. */
  datatype OrderBy = One(item: string) | Many(items: seq<string>)

  /** Reading the direction of an item without `_` throws a `TypeError`. */
  datatype OrderByError = MissingDirection(item: string)

  /** The items `parseOrderBy` walks: none for `undefined` or the falsy
      `""`; a list is walked even when empty. */
  function OrderItems(orderBy: Option<OrderBy>): seq<string>
  {
    match orderBy
    case None => []
    case Some(One(s)) => if s == "" then [] else [s]
    case Some(Many(xs)) => xs
  }

  /** The second `_`-separated segment of an item. */
  function Direction(item: string): string
    requires '_' in item
  {
    CountPositive(item, '_');
    Split(item, '_')[1]
  }

  function ParseItems(items: seq<string>): (r: Result<(seq<string>, seq<string>), OrderByError>)
    ensures r.Success? <==> forall i :: 0 <= i < |items| ==> '_' in items[i]
    ensures r.Failure? ==>
      exists i :: (0 <= i < |items| && '_' !in items[i] &&
                   (forall j :: 0 <= j < i ==> '_' in items[j]) && r.error == MissingDirection(items[i]))
    ensures r.Success? ==>
      && |r.value.0| == |items| && |r.value.1| == |items|
      && forall i :: 0 <= i < |items| ==>
           r.value.0[i] == FirstSegment(items[i], '_') && r.value.1[i] == ToLower(Direction(items[i]))
  {
    if |items| == 0 then Success(([], []))
    else if '_' !in items[0] then Failure(MissingDirection(items[0]))
    else
      match ParseItems(items[1..])
      case Failure(e) =>
        assert forall i :: 1 <= i < |items| ==> items[1..][i - 1] == items[i];
        Failure(e)
      case Success((attrs, dirs)) =>
        Success(([FirstSegment(items[0], '_')] + attrs, [ToLower(Direction(items[0]))] + dirs))
  }

  /** `parseOrderBy`: each `attr_dir` item becomes its attribute and its
      lower-cased direction, in order; an item without `_` throws. */
  function ParseOrderBy(orderBy: Option<OrderBy>): (r: Result<(seq<string>, seq<string>), OrderByError>)
    ensures r.Success? ==> |r.value.0| == |r.value.1| == |OrderItems(orderBy)|
    ensures r.Success? <==> forall i :: 0 <= i < |OrderItems(orderBy)| ==> '_' in OrderItems(orderBy)[i]
  {
    ParseItems(OrderItems(orderBy))
  }

  /** Items written as `attr_dir` parse back into their attributes and
      lower-cased directions. */
  lemma ParseOrderByRoundTrip(attrs: seq<string>, dirs: seq<string>)
    requires |attrs| == |dirs|
    requires forall i :: 0 <= i < |attrs| ==> '_' !in attrs[i] && '_' !in dirs[i]
    ensures var items := seq(|attrs|, i requires 0 <= i < |attrs| => attrs[i] + "_" + dirs[i]);
            var r := ParseOrderBy(Some(Many(items)));
            && r.Success?
            && r.value.0 == attrs
            && |r.value.1| == |dirs|
            && forall i :: 0 <= i < |dirs| ==> r.value.1[i] == ToLower(dirs[i])
  {
    var items := seq(|attrs|, i requires 0 <= i < |attrs| => attrs[i] + "_" + dirs[i]);
    forall i | 0 <= i < |attrs|
      ensures '_' in items[i] && FirstSegment(items[i], '_') == attrs[i] && Direction(items[i]) == dirs[i]
    {
      SplitPair(attrs[i], dirs[i], '_');
      assert items[i][|attrs[i]|] == '_';
    }
  }

  /** One ORDER BY term: a column and `ASC` or `DESC` as written. */
  datatype OrderTerm = OrderTerm(column: string, direction: string)

  /** `addOrderBy`: one term per item, with the attribute mapped to its
      column and the direction upper-cased. The attribute and direction
      lists always have the same length, so its length-mismatch error is
      never raised. */
  function AddOrderBy(orderBy: Option<OrderBy>, column: string -> string): (r: Result<seq<OrderTerm>, OrderByError>)
    ensures r.Success? <==> ParseOrderBy(orderBy).Success?
    ensures r.Failure? ==> r == Failure(ParseOrderBy(orderBy).error)
    ensures r.Success? ==>
      var items := OrderItems(orderBy);
      && |r.value| == |items|
      && forall i :: 0 <= i < |items| ==>
           r.value[i] == OrderTerm(column(FirstSegment(items[i], '_')), ToUpper(Direction(items[i])))
  {
    match ParseOrderBy(orderBy)
    case Failure(e) => Failure(e)
    case Success((attrs, dirs)) =>
      var items := OrderItems(orderBy);
      assert forall i :: 0 <= i < |items| ==> ToUpper(dirs[i]) == ToUpper(Direction(items[i])) by {
        forall i | 0 <= i < |items| ensures ToUpper(dirs[i]) == ToUpper(Direction(items[i])) {
          UpperOfLower(Direction(items[i]));
        }
      }
      Success(seq(|attrs|, i requires 0 <= i < |attrs| => OrderTerm(column(attrs[i]), ToUpper(dirs[i]))))
  }

  /** `orderByFields`: the attribute of each item; only `undefined` gives no
      fields, so `""` gives one empty field. */
  function OrderByFields(orderBy: Option<OrderBy>): (r: seq<string>)
    ensures orderBy.None? ==> r == []
    ensures orderBy.Some? && orderBy.value.One? ==> |r| == 1
    ensures orderBy.Some? && orderBy.value.Many? ==> |r| == |orderBy.value.items|
    ensures forall i :: 0 <= i < |r| ==> '_' !in r[i]
    // each field is its item up to the first `_`
    ensures orderBy.Some? && orderBy.value.One? ==> r == [FirstSegment(orderBy.value.item, '_')]
    ensures orderBy.Some? && orderBy.value.Many? ==>
      forall i :: 0 <= i < |r| ==> r[i] == FirstSegment(orderBy.value.items[i], '_')
  {
    match orderBy
    case None => []
    case Some(One(s)) => [FirstSegment(s, '_')]
    case Some(Many(xs)) => seq(|xs|, i requires 0 <= i < |xs| => FirstSegment(xs[i], '_'))
  }

  /** Wherever `parseOrderBy` succeeds, `orderByFields` lists the same
      attributes, except for the falsy `""`. */
  lemma OrderByFieldsMatchParse(orderBy: Option<OrderBy>)
    requires ParseOrderBy(orderBy).Success?
    requires orderBy != Some(One(""))
    ensures OrderByFields(orderBy) == ParseOrderBy(orderBy).value.0
  {
  }

  /** For `""` the two disagree: no attributes are parsed, one empty field
      is listed. */
  lemma EmptyOrderByDisagrees()
    ensures ParseOrderBy(Some(One(""))) == Success(([], []))
    ensures OrderByFields(Some(One(""))) == [""]
  {
    assert FirstSegment("", '_') == "";
  }

  /** The query `buildFindQueryWithParams` hands to the database. */
  datatype FindQuery = FindQuery(
    paging: Paging,
    selection: Option<seq<Selected>>,
    order: seq<OrderTerm>,
    conditions: seq<Query>)

  /** The query, and the caller's `fields` and `where` as the call leaves
      them (both are updated in place). */
  datatype FindResult = FindResult(query: FindQuery, fields: Option<seq<string>>, where: Where)

  /** `buildFindQueryWithParams`. `isColumn` is the truthiness of the
      entity's column map, `n.column` its attribute-to-column mapping. */
  function BuildFindQueryWithParams(where: Where, orderBy: Option<OrderBy>, pageOptions: Option<LimitOffset>,
                                    fields: Option<seq<string>>, n: Naming, isColumn: string -> bool,
                                    aliases: string -> Option<string>): (r: Result<FindResult, OrderByError>)
    ensures r.Failure? <==> ParseOrderBy(orderBy).Failure?
    ensures r.Success? ==>
      var q := r.value.query;
      && q.paging == PagingOf(pageOptions)
      && (q.selection.Some? <==> fields.Some?)
      && (r.value.fields.Some? <==> fields.Some?)
      && (fields.Some? ==>
            && q.selection == Some(Selection(fields.value, isColumn, aliases))
            && r.value.fields == Some(WithId(fields.value))
            && |q.selection.value| >= 1 && q.selection.value[0].field == "id" && "id" in r.value.fields.value)
      && q.order == AddOrderBy(orderBy, n.column).value
      && r.value.where == ApplySoftDelete(where)
      // no two comparisons share a bound parameter
      && (forall i, j | 0 <= i < j < |Keys(q.conditions)| :: Keys(q.conditions)[i] != Keys(q.conditions)[j])
  {
    var paging := PagingOf(pageOptions);
    var selection := if fields.Some? then Some(Selection(fields.value, isColumn, aliases)) else None;
    var fields' := if fields.Some? then Some(WithId(fields.value)) else None;
    match AddOrderBy(orderBy, n.column)
    case Failure(e) => Failure(e)
    case Success(order) =>
      Success(FindResult(FindQuery(paging, selection, order, BuildWhere(where, n)), fields', ApplySoftDelete(where)))
  }

  /** The built query returns exactly the records the filter matches once
      soft-deleted records are hidden (unless the filter asks otherwise). */
  lemma BuildFindQueryMeaning(where: Where, orderBy: Option<OrderBy>, pageOptions: Option<LimitOffset>,
                              fields: Option<seq<string>>, n: Naming, isColumn: string -> bool,
                              aliases: string -> Option<string>, holds: Holds)
    requires ParseOrderBy(orderBy).Success?
    ensures var r := BuildFindQueryWithParams(where, orderBy, pageOptions, fields, n, isColumn, aliases);
            EvalAll(r.value.query.conditions, holds) <==> Matches(ApplySoftDelete(where), n, holds)
  {
    BuildWhereMeaning(where, n, holds);
  }

  /** Relay page options; an absent field is `None`. */
  datatype RelayPageOptions = RelayPageOptions(
    first: Option<int>, after: Option<string>, last: Option<int>, before: Option<string>)

  /** `isLastBefore`: paging is backwards exactly when `last` is given. */
  predicate IsLastBefore(o: RelayPageOptions)
  {
    o.last.Some?
  }

  /** The page options handed on to the cursor service. */
  datatype RelayPage = FirstAfter(first: int, after: Option<string>) | LastBefore(last: int, before: Option<string>)

  datatype ConnectionError = BaseOptionsUnsupported

  /** What `findConnection` asks for: the effective page, the limit, the
      filter and row count of the page query, and the filter of the total
      count when one is requested. */
  datatype ConnectionPlan = ConnectionPlan(
    page: RelayPage,
    limit: int,
    cursor: Option<string>,
    where: Where,
    fetch: int,
    countWhere: Option<Where>)

  /** The planning part of `findConnection`. `cursorFilter` is the cursor
      service's `getFilters`, asked only when the cursor is truthy. */
  function PlanConnection(userWhere: Where, orderBy: Option<OrderBy>, pageOptions: RelayPageOptions,
                          hasBaseOptions: bool, wantsTotalCount: bool,
                          cursorFilter: (Option<OrderBy>, RelayPage) -> Where): (r: Result<ConnectionPlan, ConnectionError>)
    ensures r.Failure? <==> hasBaseOptions
    ensures r.Success? ==>
      var p := r.value;
      && (p.page.LastBefore? <==> IsLastBefore(pageOptions))
      && p.limit != 0
      && (p.page.LastBefore? ==> p.page == LastBefore(p.limit, pageOptions.before) && p.cursor == pageOptions.before
                                  && p.limit == OrElse(pageOptions.last, DefaultLimit))
      && (p.page.FirstAfter? ==> p.page == FirstAfter(p.limit, pageOptions.after) && p.cursor == pageOptions.after
                                  && p.limit == OrElse(pageOptions.first, DefaultLimit))
      // one row more than the page is fetched, to learn whether another page follows
      && p.fetch == p.limit + 1
      // the total count ignores the cursor
      && (p.countWhere.Some? <==> wantsTotalCount)
      && (wantsTotalCount ==> p.countWhere.value == userWhere)
      && (!Truthy(p.cursor) ==> p.where == userWhere)
  {
    if hasBaseOptions then Failure(BaseOptionsUnsupported)
    else
      var backward := IsLastBefore(pageOptions);
      var limit := if backward then OrElse(pageOptions.last, DefaultLimit) else OrElse(pageOptions.first, DefaultLimit);
      var cursor := if backward then pageOptions.before else pageOptions.after;
      var page := if backward then LastBefore(limit, cursor) else FirstAfter(limit, cursor);
      var fromCursor := if Truthy(cursor) then cursorFilter(orderBy, page) else EmptyWhere;
      var combined := if KeyCount(fromCursor) > 0 then Where(Present([userWhere, fromCursor]), Absent, []) else userWhere;
      Success(ConnectionPlan(page, limit, cursor, combined, limit + 1, if wantsTotalCount then Some(userWhere) else None))
  }

  /** The page query's filter matches a record exactly when the user's
      filter does and, with a truthy cursor, the cursor's filter does too. */
  lemma PlanConnectionFilter(userWhere: Where, orderBy: Option<OrderBy>, pageOptions: RelayPageOptions,
                             wantsTotalCount: bool, cursorFilter: (Option<OrderBy>, RelayPage) -> Where,
                             n: Naming, holds: Holds)
    ensures var p := PlanConnection(userWhere, orderBy, pageOptions, false, wantsTotalCount, cursorFilter).value;
            Matches(p.where, n, holds) <==>
              Matches(userWhere, n, holds) && (Truthy(p.cursor) ==> Matches(cursorFilter(orderBy, p.page), n, holds))
  {
    var p := PlanConnection(userWhere, orderBy, pageOptions, false, wantsTotalCount, cursorFilter).value;
    if Truthy(p.cursor) {
      var fc := cursorFilter(orderBy, p.page);
      if KeyCount(fc) > 0 {
        var combined := Where(Present([userWhere, fc]), Absent, []);
        assert p.where == combined;
        assert Members(combined.and) == [userWhere, fc];
        assert Matches(combined, n, holds) <==> Matches(userWhere, n, holds) && Matches(fc, n, holds) by {
          if Matches(userWhere, n, holds) && Matches(fc, n, holds) {
            assert forall i | 0 <= i < 2 :: Matches(Members(combined.and)[i], n, holds);
          }
          if Matches(combined, n, holds) {
            assert Matches(Members(combined.and)[0], n, holds);
            assert Matches(Members(combined.and)[1], n, holds);
          }
        }
      } else {
        EmptyMatches(fc, n, holds);
      }
    }
  }

  function Min(a: int, b: int): int
  {
    if a <= b then a else b
  }

  function Max(a: int, b: int): int
  {
    if a >= b then a else b
  }

  /** `rows.slice(0, end)`: a negative end counts back from the end. */
  function SliceTo<T>(rows: seq<T>, end: int): (r: seq<T>)
    ensures r <= rows
    ensures end >= 0 ==> |r| == Min(end, |rows|)
    ensures end < 0 ==> |r| == Max(|rows| + end, 0)
  {
    if end >= |rows| then rows
    else if end >= 0 then rows[..end]
    else if |rows| + end >= 0 then rows[..|rows| + end]
    else []
  }

  /** The rows returned for a page: the extra fetched row, if it came back,
      is dropped. */
  function TrimPage<T>(rows: seq<T>, limit: int): (r: seq<T>)
    ensures r <= rows
    ensures |rows| <= limit ==> r == rows
    ensures 0 <= limit < |rows| ==> |r| == limit
    ensures limit < 0 ==> |r| == Max(|rows| + limit, 0)
  {
    if |rows| > limit then SliceTo(rows, limit) else rows
  }

  /** With at most `limit + 1` rows fetched, trimming drops at most the one
      extra row, and drops it exactly when it came back. */
  lemma TrimDropsOnlyTheExtraRow<T>(rows: seq<T>, limit: int)
    requires 0 <= limit && |rows| <= limit + 1
    ensures |rows| - |TrimPage(rows, limit)| <= 1
    ensures |TrimPage(rows, limit)| < |rows| <==> |rows| == limit + 1
    ensures |TrimPage(rows, limit)| <= limit
  {
  }
}

=== FILE: mappings_processor.dfy ===
/** The mappings processor's control loop for one chain, as a step function
    over an explicit state. The block queue and the transactional executor
    are parameters: each iteration is given what `blocksWithEvents().next()`
    resolved to, the chain's mapping, and whether `stop()` arrived meanwhile;
    `hooks` is what `blocksWithHooks(range)` yields for a range, and `exec`
    says whether the executor committed a block (having called the state
    callback once, possibly inside a transaction) or threw before or after
    that callback. */
module MappingsProcessor {
  import opened Wrappers
  import opened StateKeeper

  datatype SubstrateEvent = SubstrateEvent(id: EventId, name: string)

  /** A block and its events, in block order. */
  datatype BlockData = BlockData(height: nat, events: seq<SubstrateEvent>)

  /** Every event of the block has the block's height in its id. */
  predicate WellFormed(b: BlockData)
  {
    forall i :: 0 <= i < |b.events| ==> b.events[i].id.height == b.height
  }

  /** What awaiting the next event-bearing block produced. */
  datatype Next = Done | Value(block: BlockData) | QueueFailed

  datatype Mapping = Mapping(range: Range)

  /** The context the executor hands to the state callback: transaction
      aware when it carries an entity manager. */
  datatype BlockContext = Plain(block: BlockData) | TxAware(block: BlockData, tx: TxHandle)

  /** What the executor did with a block: committed it (having called the
      state callback once), threw before calling the callback, or threw
      after it. In the last case the callback's in-memory update has
      happened; `saved` says whether its row was saved and its state change
      announced before the error, and a row saved through the block's
      transaction is rolled back with it. */
  datatype Execution =
    | Committed(tx: Option<TxHandle>)
    | Threw
    | ThrewAfterUpdate(tx: Option<TxHandle>, saved: bool)

  datatype Processor = Processor(
    started: bool,
    queueStopped: bool,
    keeper: Keeper,
    executed: seq<int>,             // heights of the committed blocks, in order
    emitted: seq<SubstrateEvent>)   // PROCESSED_EVENT notifications, in order

  /** `stopped`. */
  predicate Stopped(p: Processor)
  {
    !p.started
  }

  function Start(k: Keeper): (p: Processor)
    ensures !Stopped(p) && !p.queueStopped && p.keeper == k && p.executed == [] && p.emitted == []
  {
    Processor(true, false, k, [], [])
  }

  /** `stop()`: the queue is stopped and the loop condition becomes false. */
  function Stop(p: Processor): (p': Processor)
    ensures Stopped(p') && p'.queueStopped
    ensures p'.keeper == p.keeper && p'.executed == p.executed && p'.emitted == p.emitted
  {
    p.(started := false, queueStopped := true)
  }

  function ContextOf(b: BlockData, tx: Option<TxHandle>): BlockContext
  {
    if tx.Some? then TxAware(b, tx.value) else Plain(b)
  }

  /** The update the state callback requests, and the transaction it runs in. */
  datatype StateRequest = StateRequest(update: Update, em: Option<TxHandle>)

  /** The state callback `processBlock` hands to the executor. */
  function OnStateUpdate(ctx: BlockContext): (req: StateRequest)
    ensures req.update == Update(Some(ctx.block.height), None)
    ensures req.em.Some? <==> ctx.TxAware?
    ensures ctx.TxAware? ==> req.em == Some(ctx.tx)
  {
    StateRequest(Update(Some(ctx.block.height), None),
                 if ctx.TxAware? then Some(ctx.tx) else None)
  }

  /** Delivers `PROCESSED_EVENT` for each event, in order, to the keeper's
      listener: only the last one announced stays as the last processed
      event, and nothing is written or announced as a state change. */
  function EmitProcessed(k: Keeper, events: seq<SubstrateEvent>): (k': Keeper)
    ensures k' == k.(state := k.state.(lastProcessedEvent :=
                       if |events| == 0 then k.state.lastProcessedEvent else events[|events| - 1].id))
    decreases |events|
  {
    if |events| == 0 then k
    else EmitProcessed(OnProcessedEvent(k, events[0].id), events[1..])
  }

  /** Announcing one event from this processor is the chain-filtered
      delivery, seen from its own keeper: the model runs one chain, whose
      keeper hears only its own events. */
  lemma EmitIsFilteredDelivery(keepers: seq<Keeper>, i: nat, e: SubstrateEvent)
    requires i < |keepers|
    ensures DeliverProcessed(keepers, keepers[i].chainName, e.id)[i] == EmitProcessed(keepers[i], [e])
  {
  }

  datatype Attempt = Processed(p: Processor) | Aborted(p: Processor)

  /** The keeper after a block whose state callback moved it to `k1` was
      rolled back: the in-memory state stays moved; the row survives only
      when it was saved outside a transaction, and the state change only
      when it was announced. */
  function RolledBack(k: Keeper, k1: Keeper, tx: Option<TxHandle>, saved: bool): Keeper
  {
    k1.(log := if saved && tx.None? then k1.log else k.log,
        stateChanges := if saved then k1.stateChanges else k.stateChanges)
  }

  /** The rest of `processBlock` once the state callback has moved the
      keeper to `k1`: announce the events of a committed block, or give up
      on a block the executor threw on. */
  function Conclude(p: Processor, b: BlockData, e: Execution, k1: Keeper): Attempt
  {
    match e
    case Committed(_) =>
      Processed(p.(keeper := EmitProcessed(k1, b.events),
                   executed := p.executed + [b.height], emitted := p.emitted + b.events))
    case ThrewAfterUpdate(tx, saved) => Aborted(p.(keeper := RolledBack(p.keeper, k1, tx, saved)))
    case Threw => Aborted(p)
  }

  /** `processBlock` as written: execute the block (the callback asks the
      keeper, through the `||` merge, to move the checkpoint to its height),
      then announce its events. A block of height 0 leaves the checkpoint
      where it was. */
  function ProcessBlock(p: Processor, b: BlockData, exec: BlockData -> Execution): (r: Attempt)
    ensures exec(b).Threw? ==> r == Aborted(p)
    ensures exec(b).ThrewAfterUpdate? ==>
      && r.Aborted?
      && r.p == p.(keeper := r.p.keeper)
      // the rolled-back block still moved the in-memory checkpoint
      && (b.height != 0 ==> r.p.keeper.state.lastScannedBlock >= b.height)
      && r.p.keeper.state.lastProcessedEvent == p.keeper.state.lastProcessedEvent
      && (exec(b).tx.Some? || !exec(b).saved ==> r.p.keeper.log == p.keeper.log)
      && (!exec(b).saved ==> r.p.keeper.stateChanges == p.keeper.stateChanges)
    ensures exec(b).Committed? ==>
      && r.Processed?
      && r.p.executed == p.executed + [b.height]
      && r.p.emitted == p.emitted + b.events
      && (b.height != 0 ==> r.p.keeper.state.lastScannedBlock >= b.height)
      && (b.height == 0 ==> r.p.keeper.state.lastScannedBlock >= p.keeper.state.lastScannedBlock)
      && |r.p.keeper.log| <= |p.keeper.log| + 1
      && r.p.started == p.started && r.p.queueStopped == p.queueStopped
  {
    if exec(b).Threw? then Aborted(p)
    else
      var req := OnStateUpdate(ContextOf(b, exec(b).tx));
      Conclude(p, b, exec(b), UpdateState(p.keeper, req.update, req.em))
  }

  /** `processBlock` with the corrected `??` merge: the checkpoint reaches
      every committed block, height 0 included. */
  function ProcessBlockNullish(p: Processor, b: BlockData, exec: BlockData -> Execution): (r: Attempt)
    ensures exec(b).Threw? ==> r == Aborted(p)
    ensures exec(b).ThrewAfterUpdate? ==> r.Aborted? && r.p.keeper.state.lastScannedBlock >= b.height
    ensures exec(b).Committed? ==>
      && r.Processed?
      && r.p.executed == p.executed + [b.height]
      && r.p.emitted == p.emitted + b.events
      && r.p.keeper.state.lastScannedBlock >= b.height
      && |r.p.keeper.log| <= |p.keeper.log| + 1
  {
    if exec(b).Threw? then Aborted(p)
    else
      var req := OnStateUpdate(ContextOf(b, exec(b).tx));
      Conclude(p, b, exec(b), UpdateStateNullish(p.keeper, req.update, req.em))
  }

  /** Away from height 0 the as-written and corrected blocks agree, so every
      property of the loop built on `ProcessBlock` holds of the corrected
      one for chains whose mapping range starts above 0. */
  lemma ProcessBlockAgreesAwayFromZero(p: Processor, b: BlockData, exec: BlockData -> Execution)
    requires b.height != 0
    ensures ProcessBlock(p, b, exec) == ProcessBlockNullish(p, b, exec)
  {
    if !exec(b).Threw? {
      var req := OnStateUpdate(ContextOf(b, exec(b).tx));
      UpdateStateAgreesAwayFromZero(p.keeper, req.update, req.em);
    }
  }

  /** As written, processing block 0 from a fresh start of a range that
      begins at 0 leaves the checkpoint at -1, so the next hook lookup
      starts at block 0 again, and a restart resumes from block 0. The
      corrected block moves the checkpoint to 0. */
  lemma GenesisBlockRerun(processorId: string, chainName: string, status: IndexerStatus)
    ensures var k := Keeper(processorId, chainName, InitState(Range(0, 10), None).value, status, [], []);
            var b := BlockData(0, []);
            var r := ProcessBlock(Start(k), b, AlwaysCommits);
            && r.Processed?
            && r.p.keeper.state.lastScannedBlock == -1
            && |r.p.keeper.log| == 1
            && HookRange(r.p.keeper.state.lastScannedBlock, Done, Mapping(Range(0, 10))).from == 0
            && ProcessBlockNullish(Start(k), b, AlwaysCommits).p.keeper.state.lastScannedBlock == 0
  {
    ZeroRequestIsDropped(processorId, chainName, status);
  }

  /** A block whose save fails inside its transaction is rolled back, but
      the keeper's in-memory checkpoint has already moved to it: no row, no
      state change, and the block is not counted as executed. */
  lemma FailedSaveAdvancesCheckpoint(k: Keeper, tx: TxHandle)
    requires k.state == ProcessorState(4, EventId(3, 0))
    ensures var r := ProcessBlock(Start(k), BlockData(5, []), (b: BlockData) => ThrewAfterUpdate(Some(tx), false));
            && r.Aborted?
            && r.p.keeper.state == ProcessorState(5, EventId(3, 0))
            && r.p.keeper.log == k.log
            && r.p.keeper.stateChanges == k.stateChanges
            && r.p.executed == []
  {
  }

  /** A block whose events carry its own height leaves the checkpoint
      consistent: the last announced event lies in the block just scanned. */
  lemma ProcessBlockKeepsConsistent(p: Processor, b: BlockData, exec: BlockData -> Execution)
    requires WellFormed(b) && Consistent(p.keeper.state)
    ensures Consistent(ProcessBlock(p, b, exec).p.keeper.state)
  {
    if !exec(b).Threw? {
      var req := OnStateUpdate(ContextOf(b, exec(b).tx));
      var k1 := UpdateState(p.keeper, req.update, req.em);
      assert Consistent(k1.state);
      assert |b.events| > 0 ==> b.events[|b.events| - 1].id.height == b.height;
    }
  }

  function Heights(bs: seq<BlockData>): (hs: seq<int>)
    ensures |hs| == |bs|
  {
    if |bs| == 0 then [] else [bs[0].height] + Heights(bs[1..])
  }

  /** The `i`-th height is block `i`'s. */
  lemma {:induction false} HeightsEach(bs: seq<BlockData>)
    ensures forall i :: 0 <= i < |bs| ==> Heights(bs)[i] == bs[i].height
    decreases |bs|
  {
    if |bs| > 0 {
      HeightsEach(bs[1..]);
      forall i | 0 < i < |bs| ensures Heights(bs)[i] == bs[i].height {
        assert bs[1..][i - 1] == bs[i];
      }
    }
  }

  function Events(bs: seq<BlockData>): seq<SubstrateEvent>
  {
    if |bs| == 0 then [] else bs[0].events + Events(bs[1..])
  }

  /** The index of the first block the executor throws on, or `|bs|`. */
  function FailureIndex(bs: seq<BlockData>, exec: BlockData -> Execution): (i: nat)
    ensures i <= |bs|
    ensures i < |bs| ==> !exec(bs[i]).Committed?
  {
    if |bs| == 0 || !exec(bs[0]).Committed? then 0 else 1 + FailureIndex(bs[1..], exec)
  }

  /** Every block before the failure index commits. */
  lemma {:induction false} CommittedBeforeFailure(bs: seq<BlockData>, exec: BlockData -> Execution)
    ensures forall j :: 0 <= j < FailureIndex(bs, exec) ==> exec(bs[j]).Committed?
    decreases |bs|
  {
    if |bs| > 0 && exec(bs[0]).Committed? {
      CommittedBeforeFailure(bs[1..], exec);
      forall j | 0 < j < FailureIndex(bs, exec) ensures exec(bs[j]).Committed? {
        assert bs[1..][j - 1] == bs[j];
      }
    }
  }

  predicate AllWellFormed(bs: seq<BlockData>)
  {
    forall i :: 0 <= i < |bs| ==> WellFormed(bs[i])
  }

  /** Processes blocks in order, stopping at the first that throws: exactly
      the blocks before that one are executed and announced. */
  function ProcessBlocks(p: Processor, bs: seq<BlockData>, exec: BlockData -> Execution): (r: Attempt)
    ensures var k := FailureIndex(bs, exec);
      && (r.Aborted? <==> k < |bs|)
      && r.p.executed == p.executed + Heights(bs[..k])
      && r.p.emitted == p.emitted + Events(bs[..k])
      && r.p.started == p.started && r.p.queueStopped == p.queueStopped
    decreases |bs|
  {
    if |bs| == 0 then Processed(p)
    else
      match ProcessBlock(p, bs[0], exec)
      case Aborted(p1) =>
        assert bs[..0] == [];
        Aborted(p1)
      case Processed(p1) =>
        PrefixCons(bs, FailureIndex(bs[1..], exec));
        ProcessBlocks(p1, bs[1..], exec)
  }

  /** Processing well-formed blocks keeps the checkpoint consistent. */
  lemma {:induction false} ProcessBlocksKeepsConsistent(p: Processor, bs: seq<BlockData>, exec: BlockData -> Execution)
    requires AllWellFormed(bs) && Consistent(p.keeper.state)
    ensures Consistent(ProcessBlocks(p, bs, exec).p.keeper.state)
    decreases |bs|
  {
    if |bs| > 0 {
      AllWellFormedTail(bs);
      ProcessBlockKeepsConsistent(p, bs[0], exec);
      match ProcessBlock(p, bs[0], exec)
      case Aborted(p1) =>
      case Processed(p1) =>
        ProcessBlocksKeepsConsistent(p1, bs[1..], exec);
    }
  }

  /** The first `k + 1` blocks are the first block and `k` of the rest. */
  lemma PrefixCons(bs: seq<BlockData>, k: nat)
    requires k < |bs|
    ensures Heights(bs[..k + 1]) == [bs[0].height] + Heights(bs[1..][..k])
    ensures Events(bs[..k + 1]) == bs[0].events + Events(bs[1..][..k])
  {
    assert bs[..k + 1] == [bs[0]] + bs[1..][..k];
    assert ([bs[0]] + bs[1..][..k])[1..] == bs[1..][..k];
  }

  lemma AllWellFormedTail(bs: seq<BlockData>)
    requires |bs| > 0
    ensures AllWellFormed(bs) ==> WellFormed(bs[0]) && AllWellFormed(bs[1..])
  {
    if AllWellFormed(bs) {
      forall i | 0 <= i < |bs[1..]| ensures WellFormed(bs[1..][i]) {
        assert bs[1..][i] == bs[i + 1];
      }
    }
  }

  /** The heights that may hold hook blocks before the next event block:
      from just after the checkpoint up to the block before it, or up to the
      range's end once the event stream is done. */
  function HookRange(lastScannedBlock: int, next: Next, m: Mapping): (r: Range)
    requires !next.QueueFailed?
    ensures r.from == lastScannedBlock + 1
    ensures next.Done? ==> r.to == m.range.to
    ensures next.Value? ==> r.to + 1 == next.block.height
  {
    Range(lastScannedBlock + 1, if next.Done? then m.range.to else next.block.height - 1)
  }

  /** What iterating `blocksWithHooks(range)` gives: the blocks it yields,
      in order, and whether it then throws instead of finishing (it queries
      the indexer as it goes). */
  datatype HookStream = HookStream(blocks: seq<BlockData>, throws: bool)

  /** The hook stream of one iteration. */
  function HooksOf(p: Processor, next: Next, m: Mapping, hooks: Range -> HookStream): HookStream
    requires !next.QueueFailed?
  {
    hooks(HookRange(p.keeper.state.lastScannedBlock, next, m))
  }

  /** The blocks one iteration means to execute, in order: the yielded hook
      blocks, then the event block unless the hook stream throws first. */
  function Plan(p: Processor, next: Next, m: Mapping, hooks: Range -> HookStream): seq<BlockData>
    requires !next.QueueFailed?
  {
    var s := HooksOf(p, next, m, hooks);
    s.blocks + (if next.Value? && !s.throws then [next.block] else [])
  }

  datatype Outcome = Continue(p: Processor) | Finished(p: Processor) | Faulted(p: Processor)

  /** One iteration of `processingLoop`'s body. */
  function Iterate(p: Processor, next: Next, mapping: Option<Mapping>,
                   hooks: Range -> HookStream, exec: BlockData -> Execution): (r: Outcome)
    // a failing queue or block stops the processor, which then reports stopped
    ensures next.QueueFailed? ==> r == Faulted(Stop(p))
    ensures r.Faulted? ==> Stopped(r.p) && r.p.queueStopped
    ensures !r.Faulted? ==> r.p.started == p.started && r.p.queueStopped == p.queueStopped
    // a missing mapping ends the loop quietly
    ensures !next.QueueFailed? && mapping.None? ==> r == Finished(p)
    // otherwise the hook blocks and then the event block run as one sequence;
    // a throwing hook stream faults after its yielded blocks, and the loop
    // goes on only when the event block was executed
    ensures !next.QueueFailed? && mapping.Some? ==>
      var throws := HooksOf(p, next, mapping.value, hooks).throws;
      var run := ProcessBlocks(p, Plan(p, next, mapping.value, hooks), exec);
      && (r.Faulted? <==> run.Aborted? || throws)
      && (r.Continue? <==> run.Processed? && next.Value? && !throws)
      && r.p.keeper == run.p.keeper
      && r.p.executed == run.p.executed
      && r.p.emitted == run.p.emitted
  {
    if next.QueueFailed? then Faulted(Stop(p))
    else
      match mapping
      case None => Finished(p)
      case Some(m) =>
        var s := HooksOf(p, next, m, hooks);
        var tail := if next.Value? && !s.throws then [next.block] else [];
        ProcessBlocksAppend(p, s.blocks, tail, exec);
        match ProcessBlocks(p, s.blocks, exec)
        case Aborted(p1) => Faulted(Stop(p1))
        case Processed(p1) =>
          if s.throws then Faulted(Stop(p1))
          else if next.Done? then Finished(p1)
          else
            match ProcessBlock(p1, next.block, exec)
            case Aborted(p2) => Faulted(Stop(p2))
            case Processed(p2) => Continue(p2)
  }

  /** Processing `a + b` is processing `a`, then `b` if `a` committed. */
  lemma {:induction false} ProcessBlocksAppend(p: Processor, a: seq<BlockData>, b: seq<BlockData>,
                                               exec: BlockData -> Execution)
    ensures ProcessBlocks(p, a + b, exec) ==
      match ProcessBlocks(p, a, exec)
      case Aborted(p1) => Aborted(p1)
      case Processed(p1) => ProcessBlocks(p1, b, exec)
    decreases |a|
  {
    if |a| == 0 {
      assert a + b == b;
    } else {
      assert (a + b)[0] == a[0];
      assert (a + b)[1..] == a[1..] + b;
      match ProcessBlock(p, a[0], exec)
      case Aborted(p1) =>
      case Processed(p1) =>
        ProcessBlocksAppend(p1, a[1..], b, exec);
    }
  }

  /** An iteration executes and announces exactly the planned blocks before
      the first one the executor throws on, and faults iff there is one or
      the hook stream throws. */
  lemma IterateRunsPlanPrefix(p: Processor, next: Next, m: Mapping,
                              hooks: Range -> HookStream, exec: BlockData -> Execution)
    requires !next.QueueFailed?
    ensures var plan := Plan(p, next, m, hooks);
            var k := FailureIndex(plan, exec);
            var r := Iterate(p, next, Some(m), hooks, exec);
            && (r.Faulted? <==> k < |plan| || HooksOf(p, next, m, hooks).throws)
            && r.p.executed == p.executed + Heights(plan[..k])
            && r.p.emitted == p.emitted + Events(plan[..k])
  {
  }

  /** An iteration over well-formed blocks keeps the checkpoint consistent. */
  lemma IterateKeepsConsistent(p: Processor, next: Next, mapping: Option<Mapping>,
                               hooks: Range -> HookStream, exec: BlockData -> Execution)
    requires Consistent(p.keeper.state)
    requires !next.QueueFailed? && mapping.Some? ==> AllWellFormed(Plan(p, next, mapping.value, hooks))
    ensures Consistent(Iterate(p, next, mapping, hooks, exec).p.keeper.state)
  {
    if !next.QueueFailed? && mapping.Some? {
      ProcessBlocksKeepsConsistent(p, Plan(p, next, mapping.value, hooks), exec);
    }
  }

  /** What one resolution of the queue and the mapping lookup delivered. */
  /** `stopAfter` says that `stop()` was called (by the runner's shutdown)
      while this iteration was in flight: the iteration still runs to its
      end, and the loop condition sees the stop before the next one. */
  datatype Tick = Tick(next: Next, mapping: Option<Mapping>, stopAfter: bool)

  /** The processor as the loop condition sees it after an iteration. */
  function AfterStopRequest(p: Processor, t: Tick): (p': Processor)
    ensures t.stopAfter ==> Stopped(p') && p'.queueStopped
    ensures !t.stopAfter ==> p' == p
    ensures p'.keeper == p.keeper && p'.executed == p.executed && p'.emitted == p.emitted
  {
    if t.stopAfter then Stop(p) else p
  }

  datatype LoopEnd =
    | Terminated(p: Processor)   // the loop condition failed or the loop returned
    | Raised(p: Processor)       // an error was rethrown
    | Waiting(p: Processor)      // still running, awaiting the next block

  ghost predicate HooksWellFormed(hooks: Range -> HookStream)
  {
    forall r: Range :: AllWellFormed(hooks(r).blocks)
  }

  predicate TicksWellFormed(ticks: seq<Tick>)
  {
    forall i :: 0 <= i < |ticks| && ticks[i].next.Value? ==> WellFormed(ticks[i].next.block)
  }

  /** `processingLoop`: iterate while started, until the stream is done, the
      mapping is missing, an error is rethrown, or a `stop()` that arrived
      during an iteration is seen by the loop condition. */
  function Loop(p: Processor, ticks: seq<Tick>, hooks: Range -> HookStream,
                exec: BlockData -> Execution): (r: LoopEnd)
    decreases |ticks|
    // the loop condition is checked before every iteration
    ensures Stopped(p) ==> r == Terminated(p)
    ensures r.Raised? ==> Stopped(r.p)
    ensures r.Waiting? ==> !Stopped(r.p)
    // progress is only ever appended to
    ensures p.executed <= r.p.executed && p.emitted <= r.p.emitted
  {
    if Stopped(p) then Terminated(p)
    else if |ticks| == 0 then Waiting(p)
    else
      match Iterate(p, ticks[0].next, ticks[0].mapping, hooks, exec)
      case Continue(p1) => Loop(AfterStopRequest(p1, ticks[0]), ticks[1..], hooks, exec)
      case Finished(p1) => Terminated(AfterStopRequest(p1, ticks[0]))
      case Faulted(p1) => Raised(p1)
  }

  /** A `stop()` that arrives while an iteration is in flight lets that
      iteration finish, and the loop then ends at the next check of its
      condition: nothing more is executed or announced. */
  lemma StopRequestEndsLoop(p: Processor, ticks: seq<Tick>, hooks: Range -> HookStream,
                            exec: BlockData -> Execution)
    requires !Stopped(p) && |ticks| > 0 && ticks[0].stopAfter
    ensures var o := Iterate(p, ticks[0].next, ticks[0].mapping, hooks, exec);
            var r := Loop(p, ticks, hooks, exec);
            && Stopped(r.p)
            && (o.Faulted? ==> r == Raised(o.p))
            && (!o.Faulted? ==> r == Terminated(Stop(o.p)))
            && r.p.executed == o.p.executed && r.p.emitted == o.p.emitted
  {
  }

  /** The loop keeps the checkpoint consistent as long as every block it is
      handed is well formed. */
  lemma {:induction false} LoopKeepsConsistent(p: Processor, ticks: seq<Tick>, hooks: Range -> HookStream,
                                               exec: BlockData -> Execution)
    requires HooksWellFormed(hooks) && TicksWellFormed(ticks) && Consistent(p.keeper.state)
    ensures Consistent(Loop(p, ticks, hooks, exec).p.keeper.state)
    decreases |ticks|
  {
    if !Stopped(p) && |ticks| > 0 {
      var t := ticks[0];
      if !t.next.QueueFailed? && t.mapping.Some? {
        var hs := HooksOf(p, t.next, t.mapping.value, hooks).blocks;
        var plan := Plan(p, t.next, t.mapping.value, hooks);
        forall i | 0 <= i < |plan| ensures WellFormed(plan[i]) {
          if i < |hs| {
            assert plan[i] == hs[i];
          } else {
            assert plan[i] == t.next.block && t.next.Value?;
          }
        }
      }
      IterateKeepsConsistent(p, t.next, t.mapping, hooks, exec);
      forall i | 0 <= i < |ticks[1..]| && ticks[1..][i].next.Value?
        ensures WellFormed(ticks[1..][i].next.block) {
        assert ticks[1..][i] == ticks[i + 1];
      }
      match Iterate(p, t.next, t.mapping, hooks, exec)
      case Continue(p1) => LoopKeepsConsistent(AfterStopRequest(p1, t), ticks[1..], hooks, exec);
      case Finished(p1) =>
      case Faulted(p1) =>
    }
  }

  lemma {:induction false} EventsAppend(a: seq<BlockData>, b: seq<BlockData>)
    ensures Events(a + b) == Events(a) + Events(b)
    decreases |a|
  {
    if |a| == 0 {
      assert a + b == b;
    } else {
      assert (a + b)[1..] == a[1..] + b;
      EventsAppend(a[1..], b);
    }
  }

  lemma {:induction false} NoEvents(bs: seq<BlockData>)
    requires forall i :: 0 <= i < |bs| ==> bs[i].events == []
    ensures Events(bs) == []
    decreases |bs|
  {
    if |bs| > 0 {
      NoEvents(bs[1..]);
    }
  }

  /** An executor that always commits runs every block. */
  lemma {:induction false} CommitsAll(bs: seq<BlockData>)
    ensures FailureIndex(bs, AlwaysCommits) == |bs|
    decreases |bs|
  {
    if |bs| > 0 {
      CommitsAll(bs[1..]);
    }
  }

  /** With an executor that always commits and a hook stream that does not
      throw, an iteration towards an event block runs its whole plan and
      goes on. */
  lemma IterateCommitting(p: Processor, next: Next, m: Mapping, hooks: Range -> HookStream)
    requires next.Value? && !HooksOf(p, next, m, hooks).throws
    ensures var plan := Plan(p, next, m, hooks);
            var r := Iterate(p, next, Some(m), hooks, AlwaysCommits);
            && r.Continue?
            && r.p.executed == p.executed + Heights(plan)
            && r.p.emitted == p.emitted + Events(plan)
  {
    var plan := Plan(p, next, m, hooks);
    CommitsAll(plan);
    assert plan[..|plan|] == plan;
    IterateRunsPlanPrefix(p, next, m, hooks, AlwaysCommits);
  }

  /** The hook blocks of the scenario below: 121..124, without events. */
  function ScenarioHooks(r: Range): HookStream
  {
    HookStream(if r == Range(121, 124) then seq(4, (i: nat) => BlockData(121 + i, [])) else [], false)
  }

  function AlwaysCommits(b: BlockData): Execution
  {
    Committed(None)
  }

  lemma ScenarioPlan(k: Keeper, e: SubstrateEvent)
    requires k.state.lastScannedBlock == 120
    ensures var plan := Plan(Start(k), Value(BlockData(125, [e])), Mapping(Range(100, 200)), ScenarioHooks);
            && Heights(plan) == [121, 122, 123, 124, 125]
            && Events(plan) == [e]
  {
    var hs := ScenarioHooks(Range(121, 124)).blocks;
    var plan := Plan(Start(k), Value(BlockData(125, [e])), Mapping(Range(100, 200)), ScenarioHooks);
    assert plan == hs + [BlockData(125, [e])];
    EventsAppend(hs, [BlockData(125, [e])]);
    NoEvents(hs);
    HeightsEach(plan);
  }

  /** Scenario: with block 120 processed and the next event block at 125,
      the blocks 121..124 yielded for the hook range run first, then 125,
      whose single event is announced afterwards. */
  lemma HookRangeScenario(k: Keeper, e: SubstrateEvent)
    requires k.state.lastScannedBlock == 120
    ensures var next := Value(BlockData(125, [e]));
            var o := Iterate(Start(k), next, Some(Mapping(Range(100, 200))), ScenarioHooks, AlwaysCommits);
            && HookRange(120, next, Mapping(Range(100, 200))) == Range(121, 124)
            && o.Continue?
            && o.p.executed == [121, 122, 123, 124, 125]
            && o.p.emitted == [e]
  {
    ScenarioPlan(k, e);
    IterateCommitting(Start(k), Value(BlockData(125, [e])), Mapping(Range(100, 200)), ScenarioHooks);
  }
}

=== FILE: state_keeper.dfy ===
/** The processing checkpoint of one chain: where processing resumes after a
    restart (`initState`), and how each progress update is merged, clamped,
    logged as a `processed_events_log` row and announced as a state change. */
module StateKeeper {
  import opened Wrappers

  /** An inclusive range of block heights. */
  datatype Range = Range(from: int, to: int)

  /** The inclusive range test the keeper relies on. */
  predicate InRange(height: int, range: Range)
  {
    range.from <= height <= range.to
  }

  /** An event's position: the block height and the index inside the block
      (stored as the text `<height>-<index>`). */
  datatype EventId = EventId(height: nat, indexInBlock: nat)

  /** The id `initState` uses when nothing has been processed yet. */
  const NoEventYet := EventId(0, 0)

  datatype ProcessorState = ProcessorState(lastScannedBlock: int, lastProcessedEvent: EventId)

  /** No block before the last processed event's block is left unscanned. */
  predicate Consistent(s: ProcessorState)
  {
    s.lastScannedBlock >= s.lastProcessedEvent.height - 1
  }

  /** The two columns of the latest log row that start-up reads back. */
  datatype SavedState = SavedState(eventId: EventId, lastScannedBlock: int)

  datatype InitError =
    | BeyondRange(lastScannedBlock: int)
    | NoMapping(chainName: string)

  function Max(a: int, b: int): int
  {
    if a >= b then a else b
  }

  /** Where processing of the configured range starts, given the saved
      checkpoint: a fresh start, a resume, or a rewind to the range start.
      A checkpoint at or past the range's end is a fatal error. */
  function InitState(range: Range, saved: Option<SavedState>): (r: Result<ProcessorState, InitError>)
    ensures saved.None? ==> r == Success(ProcessorState(range.from - 1, NoEventYet))
    ensures r.Failure? <==> saved.Some? && saved.value.lastScannedBlock >= Max(range.from, range.to)
    ensures r.Failure? ==> r.error == BeyondRange(saved.value.lastScannedBlock)
    // resuming never moves the checkpoint backwards, and keeps the saved event
    ensures r.Success? && saved.Some? ==>
      r.value == ProcessorState(Max(saved.value.lastScannedBlock, range.from - 1), saved.value.eventId)
    // the first block to scan lies inside a non-empty range
    ensures r.Success? && range.from <= range.to ==>
      InRange(r.value.lastScannedBlock + 1, range)
    ensures r.Success? && saved.Some? && Consistent(ProcessorState(saved.value.lastScannedBlock, saved.value.eventId)) ==>
      Consistent(r.value)
    ensures r.Success? && saved.None? && range.from >= 0 ==> Consistent(r.value)
  {
    if saved.None? then
      Success(ProcessorState(range.from - 1, NoEventYet))
    else if InRange(saved.value.lastScannedBlock + 1, range) then
      Success(ProcessorState(saved.value.lastScannedBlock, saved.value.eventId))
    else if saved.value.lastScannedBlock < range.from then
      Success(ProcessorState(range.from - 1, saved.value.eventId))
    else
      Failure(BeyondRange(saved.value.lastScannedBlock))
  }

  /** The indexer's reported heads, copied into every log row. */
  datatype IndexerStatus = IndexerStatus(head: int, chainHeight: int)

  /** A transaction's entity manager, opaque to the model. */
  type TxHandle = nat

  /** The repository a log row is saved through. */
  datatype Repository = DefaultRepository | TransactionRepository(tx: TxHandle)

  /** One `processed_events_log` row. The keeper never fills in the chain
      column, so `substrateChain` is always `None` in rows it writes. */
  datatype LogRow = LogRow(
    processor: string,
    substrateChain: Option<string>,
    eventId: EventId,
    indexerHead: int,
    chainHead: int,
    lastScannedBlock: int,
    savedVia: Repository)

  /** The keeper of one chain: its state, the last indexer status it heard
      of, the rows it has written (append-only) and the states it announced
      with `STATE_CHANGE`. */
  datatype Keeper = Keeper(
    processorId: string,
    chainName: string,
    state: ProcessorState,
    status: IndexerStatus,
    log: seq<LogRow>,
    stateChanges: seq<ProcessorState>)

  /** A partial state passed to `updateState`; `None` is an absent field. */
  datatype Update = Update(lastScannedBlock: Option<int>, lastProcessedEvent: Option<EventId>)

  function RepositoryFor(em: Option<TxHandle>): Repository
  {
    if em.Some? then TransactionRepository(em.value) else DefaultRepository
  }

  function RowFor(k: Keeper, s: ProcessorState, em: Option<TxHandle>): LogRow
  {
    LogRow(k.processorId, None, s.lastProcessedEvent, k.status.head, k.status.chainHeight,
           s.lastScannedBlock, RepositoryFor(em))
  }

  /** `k'` is `k` after accepting state `k'.state`: exactly one row describing
      it appended, one `STATE_CHANGE` announced, nothing else touched. */
  predicate Recorded(k: Keeper, k': Keeper, em: Option<TxHandle>)
  {
    && k'.processorId == k.processorId
    && k'.chainName == k.chainName
    && k'.status == k.status
    && k'.log == k.log + [RowFor(k, k'.state, em)]
    && k'.stateChanges == k.stateChanges + [k'.state]
  }

  /** Accepts state `s` after clamping its scanned block up to the event's
      block height minus one, writing the row and announcing the change. */
  function Accept(k: Keeper, lastScannedBlock: int, event: EventId, em: Option<TxHandle>): (k': Keeper)
    ensures Recorded(k, k', em)
    ensures k'.state.lastProcessedEvent == event
    ensures k'.state.lastScannedBlock >= lastScannedBlock
    ensures Consistent(k'.state)
    ensures k'.state.lastScannedBlock == lastScannedBlock || k'.state.lastScannedBlock == event.height - 1
  {
    var s := ProcessorState(Max(lastScannedBlock, event.height - 1), event);
    k.(state := s,
       log := k.log + [RowFor(k, s, em)],
       stateChanges := k.stateChanges + [s])
  }

  /** `updateState` as written: a no-op when the requested scanned block
      equals the current one; otherwise fields merge with `||`, the scanned
      block is clamped to the event's height minus one, one row is written
      (through the caller's transaction when one is given) and the new state
      is announced. */
  function UpdateState(k: Keeper, u: Update, em: Option<TxHandle>): (k': Keeper)
    ensures u.lastScannedBlock == Some(k.state.lastScannedBlock) ==> k' == k
    ensures u.lastScannedBlock != Some(k.state.lastScannedBlock) ==>
      && Recorded(k, k', em)
      && Consistent(k'.state)
      && k'.state.lastProcessedEvent == u.lastProcessedEvent.GetOr(k.state.lastProcessedEvent)
      && k'.state.lastScannedBlock ==
           Max(OrElse(u.lastScannedBlock, k.state.lastScannedBlock), k'.state.lastProcessedEvent.height - 1)
    ensures Consistent(k.state) ==> Consistent(k'.state)
    ensures |k'.log| <= |k.log| + 1 && k.log <= k'.log
  {
    if u.lastScannedBlock == Some(k.state.lastScannedBlock) then k
    else
      Accept(k, OrElse(u.lastScannedBlock, k.state.lastScannedBlock),
             u.lastProcessedEvent.GetOr(k.state.lastProcessedEvent), em)
  }

  /** `updateState` with the evident intent of the merge: an absent field
      falls back to the current value (`??`), so a requested scanned block
      of 0 is honoured. */
  function UpdateStateNullish(k: Keeper, u: Update, em: Option<TxHandle>): (k': Keeper)
    ensures u.lastScannedBlock == Some(k.state.lastScannedBlock) ==> k' == k
    ensures u.lastScannedBlock != Some(k.state.lastScannedBlock) ==>
      && Recorded(k, k', em)
      && Consistent(k'.state)
      && k'.state.lastProcessedEvent == u.lastProcessedEvent.GetOr(k.state.lastProcessedEvent)
    // the requested scanned block is never lost
    ensures u.lastScannedBlock.Some? ==> k'.state.lastScannedBlock >= u.lastScannedBlock.value
    ensures Consistent(k.state) ==> Consistent(k'.state)
    ensures |k'.log| <= |k.log| + 1 && k.log <= k'.log
  {
    if u.lastScannedBlock == Some(k.state.lastScannedBlock) then k
    else
      Accept(k, u.lastScannedBlock.GetOr(k.state.lastScannedBlock),
             u.lastProcessedEvent.GetOr(k.state.lastProcessedEvent), em)
  }

  /** The two merges differ only on a requested scanned block of 0. */
  lemma UpdateStateAgreesAwayFromZero(k: Keeper, u: Update, em: Option<TxHandle>)
    requires u.lastScannedBlock != Some(0)
    ensures UpdateState(k, u, em) == UpdateStateNullish(k, u, em)
  {
  }

  /** As written, scanning block 0 from the fresh start of a range that
      begins at 0 leaves the checkpoint at -1, although a row is written. */
  lemma ZeroRequestIsDropped(processorId: string, chainName: string, status: IndexerStatus)
    ensures var k := Keeper(processorId, chainName, InitState(Range(0, 10), None).value, status, [], []);
            var k' := UpdateState(k, Update(Some(0), None), None);
            && k'.state.lastScannedBlock == -1
            && |k'.log| == 1
            && UpdateStateNullish(k, Update(Some(0), None), None).state.lastScannedBlock == 0
  {
  }

  /** A second identical request writes nothing when the first one was not
      raised by the clamp. */
  lemma RepeatedUpdateWritesOnce(k: Keeper, n: int, em: Option<TxHandle>)
    requires n != 0
    requires n >= k.state.lastProcessedEvent.height - 1
    ensures var k' := UpdateState(k, Update(Some(n), None), em);
            && UpdateState(k', Update(Some(n), None), em) == k'
            && k'.state.lastScannedBlock == n
  {
  }

  /** The clamp compares with the event's height only, not with the current
      scanned block: a stale request moves the checkpoint backwards, and
      repeating it writes a second row. */
  lemma StaleUpdateMovesBackwards(processorId: string, chainName: string, status: IndexerStatus)
    ensures var k := Keeper(processorId, chainName, ProcessorState(10, EventId(5, 0)), status, [], []);
            var k1 := UpdateState(k, Update(Some(3), None), None);
            var k2 := UpdateState(Keeper(processorId, chainName, ProcessorState(10, EventId(11, 0)), status, [], []),
                                  Update(Some(3), None), None);
            && k1.state.lastScannedBlock == 4
            && |UpdateState(k2, Update(Some(3), None), None).log| == 2
  {
  }

  /** The `PROCESSED_EVENT` listener: the event id becomes the last processed
      event in memory only; nothing is written or announced. */
  function OnProcessedEvent(k: Keeper, id: EventId): (k': Keeper)
    ensures k'.state == ProcessorState(k.state.lastScannedBlock, id)
    ensures k'.log == k.log && k'.stateChanges == k.stateChanges && k'.status == k.status
    ensures id.height <= k.state.lastScannedBlock + 1 ==> Consistent(k'.state)
  {
    k.(state := k.state.(lastProcessedEvent := id))
  }

  /** The `INDEXER_STATUS_CHANGE` listener: a status reported for this
      keeper's chain replaces the one it holds; other chains' reports are
      ignored. Nothing is written or announced. */
  function OnIndexerStatus(k: Keeper, status: IndexerStatus, chainName: string): (k': Keeper)
    ensures k'.state == k.state && k'.log == k.log && k'.stateChanges == k.stateChanges
    ensures k'.processorId == k.processorId && k'.chainName == k.chainName
    ensures k'.status == (if chainName == k.chainName then status else k.status)
  {
    if chainName == k.chainName then k.(status := status) else k
  }

  /** The heads in the next row written are those of the last status
      reported for the keeper's own chain: a report for another chain does
      not reach the row. */
  lemma StatusFeedsNextRow(k: Keeper, status: IndexerStatus, chainName: string, u: Update, em: Option<TxHandle>)
    requires u.lastScannedBlock != Some(k.state.lastScannedBlock)
    ensures var row := UpdateState(OnIndexerStatus(k, status, chainName), u, em).log[|k.log|];
            && (chainName == k.chainName ==> row.indexerHead == status.head && row.chainHead == status.chainHeight)
            && (chainName != k.chainName ==> row.indexerHead == k.status.head && row.chainHead == k.status.chainHeight)
  {
  }

  /** `PROCESSED_EVENT` as delivered when several chains run in one process:
      the emit carries no chain and every chain's keeper listens without a
      filter, so every keeper takes the event. */
  function BroadcastProcessed(keepers: seq<Keeper>, id: EventId): (ks: seq<Keeper>)
    ensures |ks| == |keepers|
    ensures forall i :: 0 <= i < |ks| ==>
      && ks[i].state == ProcessorState(keepers[i].state.lastScannedBlock, id)
      && ks[i].chainName == keepers[i].chainName
      && ks[i].log == keepers[i].log
  {
    seq(|keepers|, i requires 0 <= i < |keepers| => OnProcessedEvent(keepers[i], id))
  }

  /** The evidently intended delivery: only the keeper of the chain whose
      processor emitted the event takes it, the way the indexer status
      listener filters by chain. */
  function DeliverProcessed(keepers: seq<Keeper>, chainName: string, id: EventId): (ks: seq<Keeper>)
    ensures |ks| == |keepers|
    ensures forall i :: 0 <= i < |ks| && keepers[i].chainName != chainName ==> ks[i] == keepers[i]
    ensures forall i :: 0 <= i < |ks| && keepers[i].chainName == chainName ==>
      && ks[i].state == ProcessorState(keepers[i].state.lastScannedBlock, id)
      && ks[i].log == keepers[i].log && ks[i].stateChanges == keepers[i].stateChanges
  {
    seq(|keepers|, i requires 0 <= i < |keepers| =>
      if keepers[i].chainName == chainName then OnProcessedEvent(keepers[i], id) else keepers[i])
  }

  /** As delivered, an event of another chain becomes a keeper's last
      processed event: a keeper at block 10 that hears of event 5000-0 is
      no longer consistent, and its next update to block 11 is clamped to
      4999, skipping blocks 12 to 4999 of its own chain. With the filtered
      delivery the keeper is untouched and the update lands on 11. */
  lemma ForeignEventSkipsBlocks(processorId: string, status: IndexerStatus)
    ensures var a := Keeper(processorId, "a", ProcessorState(4999, EventId(4999, 0)), status, [], []);
            var b := Keeper(processorId, "b", ProcessorState(10, EventId(10, 0)), status, [], []);
            var broadcast := BroadcastProcessed([a, b], EventId(5000, 0));
            var filtered := DeliverProcessed([a, b], "a", EventId(5000, 0));
            && !Consistent(broadcast[1].state)
            && UpdateState(broadcast[1], Update(Some(11), None), None).state.lastScannedBlock == 4999
            && filtered[1] == b
            && Consistent(filtered[1].state)
            && UpdateState(filtered[1], Update(Some(11), None), None).state.lastScannedBlock == 11
  {
    var b := Keeper(processorId, "b", ProcessorState(10, EventId(10, 0)), status, [], []);
    var a := Keeper(processorId, "a", ProcessorState(4999, EventId(4999, 0)), status, [], []);
    assert DeliverProcessed([a, b], "a", EventId(5000, 0))[1] == b;
  }

  /** With the filtered delivery, an event that lies at most one block past
      its own chain's checkpoint leaves every keeper as consistent as it was. */
  lemma DeliverKeepsConsistent(keepers: seq<Keeper>, chainName: string, id: EventId)
    requires forall i :: 0 <= i < |keepers| ==> Consistent(keepers[i].state)
    requires forall i :: 0 <= i < |keepers| && keepers[i].chainName == chainName ==>
      id.height <= keepers[i].state.lastScannedBlock + 1
    ensures var ks := DeliverProcessed(keepers, chainName, id);
            forall i :: 0 <= i < |ks| ==> Consistent(ks[i].state)
  {
  }

  /** `init`: fails when the chain has no mapping or the checkpoint is past
      the range, otherwise starts from `InitState` with an empty log and one
      `STATE_CHANGE` announced. */
  function Init(processorId: string, chainName: string, mappingRange: Option<Range>,
                saved: Option<SavedState>, status: IndexerStatus): (r: Result<Keeper, InitError>)
    ensures mappingRange.None? ==> r == Failure(NoMapping(chainName))
    ensures mappingRange.Some? ==> (r.Success? <==> InitState(mappingRange.value, saved).Success?)
    ensures r.Success? ==>
      && r.value.state == InitState(mappingRange.value, saved).value
      && r.value.log == []
      && r.value.stateChanges == [r.value.state]
      && r.value.status == status
  {
    if mappingRange.None? then Failure(NoMapping(chainName))
    else
      match InitState(mappingRange.value, saved)
      case Failure(e) => Failure(e)
      case Success(s) => Success(Keeper(processorId, chainName, s, status, [], [s]))
  }
}

=== FILE: strings.dfy ===
/** The JavaScript string operations the modelled code relies on, over
    `string` (a sequence of `char`s, each a Unicode scalar value; the
    UTF-16 code units of JavaScript strings are not modelled):
    `split` on a one-character separator, `trim`, ASCII case mapping,
    `indexOf(p) === 0`, and the decimal rendering of a counter inside a
    template literal. */
module Strings {

  /** Number of occurrences of `c` in `s`. */
  function Count(s: string, c: char): nat
  {
    if |s| == 0 then 0 else (if s[0] == c then 1 else 0) + Count(s[1..], c)
  }

  lemma {:induction false} CountPositive(s: string, c: char)
    requires c in s
    ensures Count(s, c) > 0
  {
    if s[0] != c {
      assert c in s[1..] by {
        var k :| 0 <= k < |s| && s[k] == c;
        assert s[1..][k - 1] == c;
      }
      CountPositive(s[1..], c);
    }
  }

  /** `s.split(sep)`: the maximal separator-free pieces of `s`, in order.
      There is always one more piece than there are separators, so the
      empty string splits into one empty piece. */
  function Split(s: string, sep: char): (parts: seq<string>)
    ensures |parts| == Count(s, sep) + 1
    ensures forall i :: 0 <= i < |parts| ==> sep !in parts[i]
  {
    if |s| == 0 then [""]
    else
      var rest := Split(s[1..], sep);
      if s[0] == sep then [""] + rest
      else
        assert sep !in [s[0]] + rest[0];
        [[s[0]] + rest[0]] + rest[1..]
  }

  /** `parts.join(sep)`. */
  function Join(parts: seq<string>, sep: char): string
  {
    if |parts| == 0 then ""
    else if |parts| == 1 then parts[0]
    else parts[0] + [sep] + Join(parts[1..], sep)
  }

  /** Splitting loses nothing: joining the pieces back gives the input. */
  lemma {:induction false} SplitThenJoin(s: string, sep: char)
    ensures Join(Split(s, sep), sep) == s
  {
    if |s| > 0 {
      SplitThenJoin(s[1..], sep);
      var rest := Split(s[1..], sep);
      assert s == [s[0]] + s[1..];
      if s[0] == sep {
        assert ([""] + rest)[1..] == rest;
      } else {
        var parts := [[s[0]] + rest[0]] + rest[1..];
        if |rest| > 1 {
          assert parts[1..] == rest[1..];
        }
      }
    }
  }

  /** A piece without the separator splits into itself. */
  lemma {:induction false} SplitWithoutSeparator(s: string, sep: char)
    requires sep !in s
    ensures Split(s, sep) == [s]
  {
    if |s| > 0 {
      assert sep !in s[1..] by {
        forall k | 0 <= k < |s[1..]| ensures s[1..][k] != sep {
          assert s[1..][k] == s[k + 1];
        }
      }
      SplitWithoutSeparator(s[1..], sep);
      assert [s[0]] + s[1..] == s;
    }
  }

  /** Splitting `a + sep + b`, with `a` separator-free, peels off `a`. */
  lemma {:induction false} SplitAfterPiece(a: string, b: string, sep: char)
    requires sep !in a
    ensures Split(a + [sep] + b, sep) == [a] + Split(b, sep)
  {
    var s := a + [sep] + b;
    if |a| == 0 {
      assert s[1..] == b;
    } else {
      assert s[1..] == a[1..] + [sep] + b;
      assert sep !in a[1..] by {
        forall k | 0 <= k < |a[1..]| ensures a[1..][k] != sep {
          assert a[1..][k] == a[k + 1];
        }
      }
      SplitAfterPiece(a[1..], b, sep);
      assert [a[0]] + a[1..] == a;
    }
  }

  /** Joining separator-free pieces and splitting again gives the pieces:
      `Split` and `Join` are inverse to each other. */
  lemma {:induction false} JoinThenSplit(parts: seq<string>, sep: char)
    requires |parts| >= 1
    requires forall i :: 0 <= i < |parts| ==> sep !in parts[i]
    ensures Split(Join(parts, sep), sep) == parts
  {
    if |parts| == 1 {
      SplitWithoutSeparator(parts[0], sep);
    } else {
      JoinThenSplit(parts[1..], sep);
      SplitAfterPiece(parts[0], Join(parts[1..], sep), sep);
      assert [parts[0]] + parts[1..] == parts;
    }
  }

  /** Two separator-free pieces joined by the separator split back into
      those two pieces. */
  lemma SplitPair(a: string, b: string, sep: char)
    requires sep !in a && sep !in b
    ensures Split(a + [sep] + b, sep) == [a, b]
  {
    JoinThenSplit([a, b], sep);
    assert [a, b][1..] == [b];
  }

  /** `s.split(sep)[0]`: the part of `s` before the first separator, or all
      of `s` when it has none. */
  function FirstSegment(s: string, sep: char): (r: string)
    ensures sep !in r
    ensures sep !in s ==> r == s
    ensures sep in s ==> |r| < |s| && s[..|r|] == r && s[|r|] == sep
  {
    var parts := Split(s, sep);
    SplitThenJoin(s, sep);
    if sep !in s then
      SplitWithoutSeparator(s, sep);
      parts[0]
    else
      CountPositive(s, sep);
      assert s == parts[0] + [sep] + Join(parts[1..], sep);
      parts[0]
  }

  /** `s.indexOf(prefix) === 0`. */
  predicate StartsWith(s: string, prefix: string)
  {
    |prefix| <= |s| && s[..|prefix|] == prefix
  }

  /** The code points `String.prototype.trim` removes: the WhiteSpace and
      LineTerminator characters of ECMA-262. */
  predicate IsWhiteSpace(c: char)
  {
    var n := c as int;
    n == 0x09 || n == 0x0A || n == 0x0B || n == 0x0C || n == 0x0D || n == 0x20
    || n == 0xA0 || n == 0x1680 || (0x2000 <= n <= 0x200A) || n == 0x2028
    || n == 0x2029 || n == 0x202F || n == 0x205F || n == 0x3000 || n == 0xFEFF
  }

  predicate AllWhiteSpace(s: string)
  {
    forall i :: 0 <= i < |s| ==> IsWhiteSpace(s[i])
  }

  /** Neither the first nor the last character is white space. */
  predicate IsTrimmed(s: string)
  {
    |s| == 0 || (!IsWhiteSpace(s[0]) && !IsWhiteSpace(s[|s| - 1]))
  }

  /** `s` is `r` with white space before it (up to index `i`) and after it. */
  predicate PaddedBy(s: string, r: string, i: nat)
  {
    && i + |r| <= |s|
    && s[i..i + |r|] == r
    && AllWhiteSpace(s[..i])
    && AllWhiteSpace(s[i + |r|..])
  }

  function TrimStart(s: string): (r: string)
    ensures |r| <= |s| && r == s[|s| - |r|..]
    ensures AllWhiteSpace(s[..|s| - |r|])
    ensures |r| == 0 || !IsWhiteSpace(r[0])
  {
    if |s| > 0 && IsWhiteSpace(s[0]) then
      var r := TrimStart(s[1..]);
      assert s[..|s| - |r|] == [s[0]] + s[1..][..|s[1..]| - |r|];
      r
    else s
  }

  function TrimEnd(s: string): (r: string)
    ensures |r| <= |s| && r == s[..|r|]
    ensures AllWhiteSpace(s[|r|..])
    ensures |r| == 0 || !IsWhiteSpace(r[|r| - 1])
  {
    if |s| > 0 && IsWhiteSpace(s[|s| - 1]) then
      var r := TrimEnd(s[..|s| - 1]);
      assert s[|r|..] == s[..|s| - 1][|r|..] + [s[|s| - 1]];
      r
    else s
  }

  /** `s.trim()`: `s` with white space stripped from both ends. */
  function Trim(s: string): (r: string)
    ensures IsTrimmed(r)
    ensures exists i: nat :: PaddedBy(s, r, i)
  {
    var t := TrimStart(s);
    var r := TrimEnd(t);
    var i := |s| - |t|;
    assert s[i..i + |r|] == r;
    assert s[i + |r|..] == t[|r|..];
    assert PaddedBy(s, r, i);
    r
  }

  lemma {:induction false} TrimStartAfterWhiteSpace(p: string, q: string)
    requires AllWhiteSpace(p)
    requires |q| == 0 || !IsWhiteSpace(q[0])
    ensures TrimStart(p + q) == q
  {
    if |p| > 0 {
      assert (p + q)[1..] == p[1..] + q;
      TrimStartAfterWhiteSpace(p[1..], q);
    } else {
      assert p + q == q;
    }
  }

  lemma {:induction false} TrimEndBeforeWhiteSpace(q: string, p: string)
    requires AllWhiteSpace(p)
    requires |q| == 0 || !IsWhiteSpace(q[|q| - 1])
    ensures TrimEnd(q + p) == q
  {
    if |p| > 0 {
      assert (q + p)[..|q + p| - 1] == q + p[..|p| - 1];
      TrimEndBeforeWhiteSpace(q, p[..|p| - 1]);
    } else {
      assert q + p == q;
    }
  }

  /** `Trim` is the one trimmed string that `s` pads with white space: any
      trimmed `r` found inside white-space padding is `Trim(s)`. */
  lemma TrimIsUnique(s: string, r: string, i: nat)
    requires PaddedBy(s, r, i)
    requires IsTrimmed(r)
    ensures Trim(s) == r
  {
    var pre, post := s[..i], s[i + |r|..];
    assert s == pre + (r + post);
    if |r| == 0 {
      assert AllWhiteSpace(pre + post);
      TrimStartAfterWhiteSpace(pre + post, "");
      assert pre + (r + post) == (pre + post) + "";
    } else {
      TrimStartAfterWhiteSpace(pre, r + post);
      TrimEndBeforeWhiteSpace(r, post);
    }
  }

  /** A trimmed string is its own trim. */
  lemma TrimOfTrimmed(s: string)
    requires IsTrimmed(s)
    ensures Trim(s) == s
  {
    assert PaddedBy(s, s, 0) by {
      assert s[..0] == "" && s[|s|..] == "" && s[0..|s|] == s;
    }
    TrimIsUnique(s, s, 0);
  }

  /** Trimming only removes characters: a character absent from `s` is
      absent from `Trim(s)`. */
  lemma TrimKeepsAbsent(s: string, c: char)
    requires c !in s
    ensures c !in Trim(s)
  {
    var r := Trim(s);
    var i: nat :| PaddedBy(s, r, i);
    forall k | 0 <= k < |r| ensures r[k] != c {
      assert r[k] == s[i + k];
    }
  }

  /** Trimming twice is trimming once. */
  lemma TrimIdempotent(s: string)
    ensures Trim(Trim(s)) == Trim(s)
  {
    var r := Trim(s);
    assert PaddedBy(r, r, 0) by {
      assert r[..0] == "" && r[|r|..] == "";
      assert r[0..|r|] == r;
    }
    TrimIsUnique(r, r, 0);
  }

  /** ASCII case mapping; `toLowerCase` and `toUpperCase` of characters
      outside A-Z / a-z are left as they are. */
  function LowerChar(c: char): char
  {
    if 'A' <= c <= 'Z' then (c as int + 32) as char else c
  }

  function UpperChar(c: char): char
  {
    if 'a' <= c <= 'z' then (c as int - 32) as char else c
  }

  function ToLower(s: string): (r: string)
    ensures |r| == |s|
    ensures forall i :: 0 <= i < |s| ==> r[i] == LowerChar(s[i])
  {
    seq(|s|, i requires 0 <= i < |s| => LowerChar(s[i]))
  }

  function ToUpper(s: string): (r: string)
    ensures |r| == |s|
    ensures forall i :: 0 <= i < |s| ==> r[i] == UpperChar(s[i])
  {
    seq(|s|, i requires 0 <= i < |s| => UpperChar(s[i]))
  }

  /** Upper-casing a lower-cased string is upper-casing it directly. */
  lemma UpperOfLower(s: string)
    ensures ToUpper(ToLower(s)) == ToUpper(s)
  {
  }

  predicate IsDigit(c: char)
  {
    '0' <= c <= '9'
  }

  function DigitChar(d: nat): (c: char)
    requires d < 10
    ensures IsDigit(c)
  {
    ('0' as int + d) as char
  }

  /** The template-literal rendering `${n}` of a natural number. */
  function NatToDecimal(n: nat): (r: string)
    ensures |r| >= 1
    ensures forall i :: 0 <= i < |r| ==> IsDigit(r[i])
    ensures r[0] == '0' ==> n == 0
  {
    if n < 10 then [DigitChar(n)] else NatToDecimal(n / 10) + [DigitChar(n % 10)]
  }

  /** The number a string of decimal digits denotes. */
  function DecimalValue(s: string): nat
    requires forall i :: 0 <= i < |s| ==> IsDigit(s[i])
  {
    if |s| == 0 then 0
    else
      assert IsDigit(s[|s| - 1]);
      DecimalValue(s[..|s| - 1]) * 10 + (s[|s| - 1] as int - '0' as int)
  }

  lemma {:induction false} DecimalRoundTrip(n: nat)
    ensures DecimalValue(NatToDecimal(n)) == n
  {
    if n >= 10 {
      DecimalRoundTrip(n / 10);
      var r := NatToDecimal(n);
      assert r[..|r| - 1] == NatToDecimal(n / 10);
    }
  }

  /** Distinct numbers render differently. */
  lemma NatToDecimalInjective(a: nat, b: nat)
    requires NatToDecimal(a) == NatToDecimal(b)
    ensures a == b
  {
    DecimalRoundTrip(a);
    DecimalRoundTrip(b);
  }
}

=== FILE: typegen_flags.dfy ===
/** `Typegen.parseFlags`: how the command-line flags of the type generator
    become its configuration. Lists are comma-separated and each piece is
    trimmed; metadata sources are paired, by position, with block hashes.
    `path.resolve` is a parameter. */
module TypegenFlags {
  import opened Wrappers
  import opened Strings

  /** The parsed command-line flags; an absent flag is `None`. */
  datatype Flags = Flags(
    events: Option<string>,
    calls: Option<string>,
    metadata: string,
    blockHashes: Option<string>,
    typedefs: Option<string>,
    typelib: Option<string>,
    outDir: string,
    strict: bool,
    debug: bool)

  /** Where custom types are imported from, and their definitions file. */
  datatype CustomTypes = CustomTypes(lib: string, typedefsLoc: string)

  /** One metadata source and the block hash to fetch it at, if any. */
  datatype MetadataSource = MetadataSource(source: string, blockHash: Option<string>)

  datatype Config = Config(
    metadata: seq<MetadataSource>,
    events: seq<string>,
    calls: seq<string>,
    customTypes: Option<CustomTypes>,
    outDir: string,
    strict: bool)

  datatype FlagsError = MissingTypelib

  /** `s ? s.split(',').map((x) => x.trim()) : []`: one trimmed piece per
      comma-separated piece, none for an absent or empty flag. */
  function CommaList(s: Option<string>): (r: seq<string>)
    ensures !Truthy(s) ==> r == []
    ensures Truthy(s) ==> |r| == Count(s.value, ',') + 1
    ensures forall i :: 0 <= i < |r| ==> IsTrimmed(r[i]) && ',' !in r[i]
    // each item is the comma-separated piece at its position, trimmed
    ensures Truthy(s) ==> forall i :: 0 <= i < |r| ==> r[i] == Trim(Split(s.value, ',')[i])
  {
    if !Truthy(s) then []
    else
      var parts := Split(s.value, ',');
      assert forall i :: 0 <= i < |parts| ==> ',' !in Trim(parts[i]) by {
        forall i | 0 <= i < |parts| ensures ',' !in Trim(parts[i]) {
          TrimKeepsAbsent(parts[i], ',');
        }
      }
      seq(|parts|, i requires 0 <= i < |parts| => Trim(parts[i]))
  }

  lemma TrimAllOfTrimmed(items: seq<string>)
    requires forall i :: 0 <= i < |items| ==> IsTrimmed(items[i])
    ensures seq(|items|, i requires 0 <= i < |items| => Trim(items[i])) == items
  {
    forall i | 0 <= i < |items| ensures Trim(items[i]) == items[i] {
      TrimOfTrimmed(items[i]);
    }
  }

  /** Joining trimmed, comma-free items with commas and parsing the list
      gives the items back. */
  lemma CommaListRoundTrip(items: seq<string>)
    requires |items| >= 1
    requires forall i :: 0 <= i < |items| ==> ',' !in items[i] && IsTrimmed(items[i])
    requires Join(items, ',') != ""
    ensures CommaList(Some(Join(items, ','))) == items
  {
    var s := Join(items, ',');
    JoinThenSplit(items, ',');
    TrimAllOfTrimmed(items);
    assert CommaList(Some(s)) == seq(|items|, i requires 0 <= i < |items| => Trim(items[i]));
  }

  /** Each source, in order, with the block hash at the same position when
      there is a non-empty one. */
  function PairSources(sources: seq<string>, hashes: seq<string>): (r: seq<MetadataSource>)
    ensures |r| == |sources|
    ensures forall i :: 0 <= i < |r| ==>
      && r[i].source == sources[i]
      && (r[i].blockHash.Some? <==> i < |hashes| && hashes[i] != "")
      && (r[i].blockHash.Some? ==> r[i].blockHash.value == hashes[i])
  {
    seq(|sources|, i requires 0 <= i < |sources| =>
      MetadataSource(sources[i], if i < |hashes| && hashes[i] != "" then Some(hashes[i]) else None))
  }

  /** `parseFlags`: typedefs without a typelib is an error (an empty typelib
      is accepted); otherwise the lists are parsed and `outDir` and `strict`
      copied through. */
  function ParseFlags(flags: Flags, resolve: string -> string): (r: Result<Config, FlagsError>)
    ensures r.Failure? <==> Truthy(flags.typedefs) && flags.typelib.None?
    ensures r.Success? ==>
      var c := r.value;
      && (c.customTypes.Some? <==> Truthy(flags.typedefs))
      && (c.customTypes.Some? ==>
            c.customTypes.value == CustomTypes(flags.typelib.value, resolve(flags.typedefs.value)))
      && c.events == CommaList(flags.events)
      && c.calls == CommaList(flags.calls)
      && |c.metadata| == |CommaList(Some(flags.metadata))|
      && (forall i :: 0 <= i < |c.metadata| ==> c.metadata[i].source == CommaList(Some(flags.metadata))[i])
      && c.outDir == flags.outDir
      && c.strict == flags.strict
  {
    if Truthy(flags.typedefs) && flags.typelib.None? then Failure(MissingTypelib)
    else
      var customTypes :=
        if Truthy(flags.typedefs) then Some(CustomTypes(flags.typelib.value, resolve(flags.typedefs.value))) else None;
      var sources := CommaList(Some(flags.metadata));
      var hashes := CommaList(flags.blockHashes);
      Success(Config(PairSources(sources, hashes), CommaList(flags.events), CommaList(flags.calls),
                     customTypes, flags.outDir, flags.strict))
  }

  /** Source `i` carries the `i`-th block hash exactly when that piece of
      the block-hash list exists and is not blank. */
  lemma ParseFlagsPairsHashes(flags: Flags, resolve: string -> string, i: nat)
    requires ParseFlags(flags, resolve).Success?
    requires i < |ParseFlags(flags, resolve).value.metadata|
    ensures var s := ParseFlags(flags, resolve).value.metadata[i];
            var hashes := CommaList(flags.blockHashes);
            && (s.blockHash.Some? <==> i < |hashes| && hashes[i] != "")
            && (s.blockHash.Some? ==> s.blockHash.value == hashes[i])
  {
  }

  /** A single metadata source without block hashes, such as the default
      `metadata.json`, yields one source without a hash. */
  lemma SingleMetadataSource(flags: Flags, resolve: string -> string)
    requires flags.metadata != "" && ',' !in flags.metadata && IsTrimmed(flags.metadata)
    requires flags.blockHashes.None? && !Truthy(flags.typedefs)
    ensures ParseFlags(flags, resolve) == Success(Config(
      [MetadataSource(flags.metadata, None)],
      CommaList(flags.events), CommaList(flags.calls), None, flags.outDir, flags.strict))
  {
    var m := flags.metadata;
    assert Join([m], ',') == m;
    CommaListRoundTrip([m]);
    assert CommaList(Some(m)) == [m];
    assert CommaList(flags.blockHashes) == [];
    assert PairSources([m], []) == [MetadataSource(m, None)];
  }
}

=== FILE: where_query.dfy ===
/** How a GraphQL filter object becomes the WHERE part of a query: the
    soft-delete default, the recursive AND/OR bracketing that ignores empty
    members, the split of each `<field>_<operator>` key, and the numbering
    of bound parameters. The query is produced as an AST; what one
    comparison means on a record (`holds`) and how an attribute maps to a
    column (`Naming.column`) are left uninterpreted. */
module WhereQuery {
  import opened Strings

  datatype Value = Str(s: string) | Num(n: int) | Bool(b: bool) | Null

  /** One `<field>_<operator>: value` entry of a filter object. */
  datatype Attr = Attr(key: string, value: Value)

  /** The `AND` or `OR` key of a filter object: absent, or a list of filter
      objects. */
  datatype Group = Absent | Present(members: seq<Where>)

  /** A filter object: its `AND` and `OR` keys and its other keys, in key
      order. */
  datatype Where = Where(and: Group, or: Group, attrs: seq<Attr>)

  const EmptyWhere := Where(Absent, Absent, [])

  function Members(g: Group): seq<Where>
  {
    if g.Present? then g.members else []
  }

  /** `Object.keys(w).length`. */
  function KeyCount(w: Where): nat
  {
    (if w.and.Present? then 1 else 0) + (if w.or.Present? then 1 else 0) + |w.attrs|
  }

  /** `JSON.stringify(w) === '{}'`: the object has no keys at all. */
  predicate IsEmptyObject(w: Where)
  {
    KeyCount(w) == 0
  }

  datatype FieldOp = FieldOp(field: string, operator: string)

  /** Splits a filter key on `_`: the field is the first segment, the
      operator the second, or `eq` when the key has no `_`. Any further
      segments are ignored. */
  function SplitKey(key: string): FieldOp
  {
    var parts := Split(key, '_');
    FieldOp(parts[0], if |parts| > 1 then parts[1] else "eq")
  }

  /** The field and operator are the first two `_`-separated segments of the
      key, and the operator defaults to `eq` only for a key without `_`. */
  lemma SplitKeyShape(key: string)
    ensures var r := SplitKey(key);
      && '_' !in r.field && '_' !in r.operator
      && ('_' !in key ==> r == FieldOp(key, "eq"))
      && ('_' in key ==>
            var head := r.field + "_" + r.operator;
            && StartsWith(key, head)
            && (|key| == |head| || key[|head|] == '_'))
  {
    var parts := Split(key, '_');
    SplitThenJoin(key, '_');
    if |parts| == 1 {
      assert '_' !in key by {
        if '_' in key { CountPositive(key, '_'); }
      }
    } else {
      var head := parts[0] + "_" + parts[1];
      assert key == parts[0] + "_" + Join(parts[1..], '_');
      assert |parts[1..]| > 1 ==> Join(parts[1..], '_') == parts[1] + "_" + Join(parts[2..], '_') by {
        if |parts[1..]| > 1 { assert parts[1..][1..] == parts[2..]; }
      }
      assert '_' in key by { assert key[|parts[0]|] == '_'; }
      assert key[..|head|] == head;
    }
  }

  /** A key written as `<field>_<operator>` splits back into its parts. */
  lemma SplitKeyOfFieldOp(field: string, operator: string)
    requires '_' !in field && '_' !in operator
    ensures SplitKey(field + "_" + operator) == FieldOp(field, operator)
  {
    SplitPair(field, operator, '_');
  }

  /** The prefix of bound-parameter names, and the attribute-to-column
      mapping of the entity. */
  datatype Naming = Naming(paramKeyPrefix: string, column: string -> string)

  /** The WHERE part as a tree: comparisons with their bound parameter,
      bracketed conjunctions and disjunctions. */
  datatype Query =
    | Leaf(column: string, operator: string, paramKey: string, value: Value)
    | AndGroup(members: seq<Query>)
    | OrGroup(members: seq<Query>)

  /** `${paramKeyPrefix}${counter}`. */
  function ParamKey(n: Naming, counter: nat): string
  {
    n.paramKeyPrefix + NatToDecimal(counter)
  }

  /** The comparison a filter entry stands for. */
  function LeafFor(a: Attr, n: Naming, counter: nat): Query
  {
    var fo := SplitKey(a.key);
    Leaf(n.column(fo.field), fo.operator, ParamKey(n, counter), a.value)
  }

  /** `processWheres`: one comparison per entry, in key order, numbered from
      `counter` on. */
  function LeafConds(attrs: seq<Attr>, n: Naming, counter: nat): (r: (seq<Query>, nat))
    ensures r.1 == counter + |attrs|
    ensures |r.0| == |attrs|
    decreases |attrs|
  {
    if |attrs| == 0 then ([], counter)
    else
      var rest := LeafConds(attrs[1..], n, counter + 1);
      ([LeafFor(attrs[0], n, counter)] + rest.0, rest.1)
  }

  /** The `i`-th comparison is entry `i`'s, with parameter `counter + i`. */
  lemma {:induction false} LeafCondsEach(attrs: seq<Attr>, n: Naming, counter: nat)
    ensures forall i :: 0 <= i < |attrs| ==> LeafConds(attrs, n, counter).0[i] == LeafFor(attrs[i], n, counter + i)
    decreases |attrs|
  {
    if |attrs| > 0 {
      LeafCondsEach(attrs[1..], n, counter + 1);
      var r := LeafConds(attrs, n, counter).0;
      forall i | 0 <= i < |attrs| ensures r[i] == LeafFor(attrs[i], n, counter + i) {
        if i > 0 { assert attrs[1..][i - 1] == attrs[i]; }
      }
    }
  }

  datatype GroupKind = AndKind | OrKind

  function MembersOf(w: Where, kind: GroupKind): seq<Where>
  {
    if kind == AndKind then Members(w.and) else Members(w.or)
  }

  /** `processWhereInput`: the conditions a filter object adds, all ANDed:
      the AND bracket, then the OR bracket, then its own comparisons. The
      counter is shared across the whole tree, in that order. */
  function Conds(w: Where, n: Naming, counter: nat): (r: (seq<Query>, nat))
    ensures r.1 >= counter
    decreases w, 2, 0
  {
    var ands := GroupConds(w, AndKind, n, counter);
    var ors := GroupConds(w, OrKind, n, ands.1);
    var leaves := LeafConds(w.attrs, n, ors.1);
    (ands.0 + ors.0 + leaves.0, leaves.1)
  }

  /** The bracket an AND or OR list adds: nothing when the key is absent or
      every member is `{}`; otherwise one group of the non-empty members. */
  function GroupConds(w: Where, kind: GroupKind, n: Naming, counter: nat): (r: (seq<Query>, nat))
    ensures r.1 >= counter
    ensures |r.0| <= 1
    decreases w, 1, 0
  {
    var ms := Bracketed(w, kind, 0, n, counter);
    if |ms.0| == 0 then ([], ms.1)
    else if kind == AndKind then ([AndGroup(ms.0)], ms.1)
    else ([OrGroup(ms.0)], ms.1)
  }

  /** The bracketed members from index `i` on: each non-empty member becomes
      a bracket of its own conditions; `{}` members are skipped. */
  function Bracketed(w: Where, kind: GroupKind, i: nat, n: Naming, counter: nat): (r: (seq<Query>, nat))
    requires i <= |MembersOf(w, kind)|
    ensures r.1 >= counter
    decreases w, 0, |MembersOf(w, kind)| - i
  {
    var ms := MembersOf(w, kind);
    if i == |ms| then ([], counter)
    else if IsEmptyObject(ms[i]) then Bracketed(w, kind, i + 1, n, counter)
    else
      var c := Conds(ms[i], n, counter);
      var rest := Bracketed(w, kind, i + 1, n, c.1);
      ([AndGroup(c.0)] + rest.0, rest.1)
  }

  /** What a comparison means for a record. */
  type Holds = (string, string, Value) -> bool

  predicate Eval(q: Query, holds: Holds)
  {
    match q
    case Leaf(c, op, _, v) => holds(c, op, v)
    case AndGroup(ms) => forall i | 0 <= i < |ms| :: Eval(ms[i], holds)
    case OrGroup(ms) => exists i | 0 <= i < |ms| :: Eval(ms[i], holds)
  }

  /** A list of conditions ANDed together. */
  predicate EvalAll(qs: seq<Query>, holds: Holds)
  {
    forall i | 0 <= i < |qs| :: Eval(qs[i], holds)
  }

  predicate LeafHolds(a: Attr, n: Naming, holds: Holds)
  {
    var fo := SplitKey(a.key);
    holds(n.column(fo.field), fo.operator, a.value)
  }

  /** Every comparison of a filter object's own keys holds. */
  predicate AttrsHold(attrs: seq<Attr>, n: Naming, holds: Holds)
  {
    forall i | 0 <= i < |attrs| :: LeafHolds(attrs[i], n, holds)
  }

  /** The intended meaning of a filter object, stated on the object itself:
      every AND member holds; some non-empty OR member holds unless there is
      none; every comparison holds. `{}` members constrain nothing. */
  predicate Matches(w: Where, n: Naming, holds: Holds)
    decreases w
  {
    && (forall i | 0 <= i < |Members(w.and)| :: Matches(Members(w.and)[i], n, holds))
    && ((forall i | 0 <= i < |Members(w.or)| :: IsEmptyObject(Members(w.or)[i]))
        || (exists i | 0 <= i < |Members(w.or)| ::
              !IsEmptyObject(Members(w.or)[i]) && Matches(Members(w.or)[i], n, holds)))
    && AttrsHold(w.attrs, n, holds)
  }

  predicate AnyEval(qs: seq<Query>, holds: Holds)
  {
    exists t | 0 <= t < |qs| :: Eval(qs[t], holds)
  }

  /** Every member from index `lo` on is `{}` (walked one member at a
      time, the way `Bracketed` walks them). */
  predicate AllEmpty(ms: seq<Where>, lo: nat)
    decreases |ms| - lo
  {
    lo >= |ms| || (IsEmptyObject(ms[lo]) && AllEmpty(ms, lo + 1))
  }

  /** Every member from index `lo` on matches. */
  predicate AllMatch(ms: seq<Where>, lo: nat, n: Naming, holds: Holds)
    decreases |ms| - lo
  {
    lo >= |ms| || (Matches(ms[lo], n, holds) && AllMatch(ms, lo + 1, n, holds))
  }

  /** Some non-empty member from index `lo` on matches. */
  predicate SomeMatch(ms: seq<Where>, lo: nat, n: Naming, holds: Holds)
    decreases |ms| - lo
  {
    lo < |ms| && ((!IsEmptyObject(ms[lo]) && Matches(ms[lo], n, holds)) || SomeMatch(ms, lo + 1, n, holds))
  }

  lemma {:induction false} AllEmptyEvery(ms: seq<Where>, lo: nat)
    ensures AllEmpty(ms, lo) <==> forall j | lo <= j < |ms| :: IsEmptyObject(ms[j])
    decreases |ms| - lo
  {
    if lo < |ms| { AllEmptyEvery(ms, lo + 1); }
  }

  lemma {:induction false} AllMatchEvery(ms: seq<Where>, lo: nat, n: Naming, holds: Holds)
    ensures AllMatch(ms, lo, n, holds) <==> forall j | lo <= j < |ms| :: Matches(ms[j], n, holds)
    decreases |ms| - lo
  {
    if lo < |ms| { AllMatchEvery(ms, lo + 1, n, holds); }
  }

  lemma {:induction false} SomeMatchExists(ms: seq<Where>, lo: nat, n: Naming, holds: Holds)
    ensures SomeMatch(ms, lo, n, holds) <==>
            exists j | lo <= j < |ms| :: !IsEmptyObject(ms[j]) && Matches(ms[j], n, holds)
    decreases |ms| - lo
  {
    if lo < |ms| {
      SomeMatchExists(ms, lo + 1, n, holds);
      if exists j | lo <= j < |ms| :: !IsEmptyObject(ms[j]) && Matches(ms[j], n, holds) {
        var j :| lo <= j < |ms| && !IsEmptyObject(ms[j]) && Matches(ms[j], n, holds);
        if j > lo { assert !IsEmptyObject(ms[j]) && Matches(ms[j], n, holds); }
      }
    }
  }

  lemma EvalAllAppend(a: seq<Query>, b: seq<Query>, holds: Holds)
    ensures EvalAll(a + b, holds) <==> EvalAll(a, holds) && EvalAll(b, holds)
  {
    if EvalAll(a, holds) && EvalAll(b, holds) {
      forall i | 0 <= i < |a + b| ensures Eval((a + b)[i], holds) {
        if i >= |a| { assert (a + b)[i] == b[i - |a|]; }
      }
    }
    if EvalAll(a + b, holds) {
      forall i | 0 <= i < |a| ensures Eval(a[i], holds) {
        assert (a + b)[i] == a[i];
      }
      forall i | 0 <= i < |b| ensures Eval(b[i], holds) {
        assert (a + b)[|a| + i] == b[i];
      }
    }
  }

  lemma EvalAllSingle(q: Query, holds: Holds)
    ensures EvalAll([q], holds) <==> Eval(q, holds)
  {
    assert [q][0] == q;
  }

  lemma EvalAllBracketCons(qs: seq<Query>, rest: seq<Query>, holds: Holds)
    ensures EvalAll([AndGroup(qs)] + rest, holds) <==> EvalAll(qs, holds) && EvalAll(rest, holds)
  {
    EvalAllAppend([AndGroup(qs)], rest, holds);
    EvalAllSingle(AndGroup(qs), holds);
  }

  /** The comparisons built from a filter object's own keys hold exactly
      when each entry holds. */
  lemma LeafCondsMeaning(attrs: seq<Attr>, n: Naming, counter: nat, holds: Holds)
    ensures EvalAll(LeafConds(attrs, n, counter).0, holds) <==> AttrsHold(attrs, n, holds)
  {
    var leaves := LeafConds(attrs, n, counter).0;
    LeafCondsEach(attrs, n, counter);
    forall i | 0 <= i < |attrs| ensures Eval(leaves[i], holds) == LeafHolds(attrs[i], n, holds) {
      assert leaves[i] == LeafFor(attrs[i], n, counter + i);
    }
  }

  lemma AnyEvalCons(q: Query, qs: seq<Query>, holds: Holds)
    ensures AnyEval([q] + qs, holds) <==> Eval(q, holds) || AnyEval(qs, holds)
  {
    var all := [q] + qs;
    if AnyEval(all, holds) {
      var t :| 0 <= t < |all| && Eval(all[t], holds);
      if t > 0 { assert all[t] == qs[t - 1]; }
    }
    if AnyEval(qs, holds) {
      var t :| 0 <= t < |qs| && Eval(qs[t], holds);
      assert all[t + 1] == qs[t];
    }
    assert all[0] == q;
  }

  lemma AnyEvalBracketCons(qs: seq<Query>, rest: seq<Query>, holds: Holds)
    ensures AnyEval([AndGroup(qs)] + rest, holds) <==> EvalAll(qs, holds) || AnyEval(rest, holds)
  {
    AnyEvalCons(AndGroup(qs), rest, holds);
  }

  /** `{}` members constrain nothing. */
  lemma EmptyMatches(w: Where, n: Naming, holds: Holds)
    requires IsEmptyObject(w)
    ensures Matches(w, n, holds)
  {
  }

  /** A list of `{}` members: all of them match, and none counts as a
      matching OR member. */
  lemma {:induction false} AllEmptyMeaning(ms: seq<Where>, lo: nat, n: Naming, holds: Holds)
    requires AllEmpty(ms, lo)
    ensures AllMatch(ms, lo, n, holds) && !SomeMatch(ms, lo, n, holds)
    decreases |ms| - lo
  {
    if lo < |ms| {
      EmptyMatches(ms[lo], n, holds);
      AllEmptyMeaning(ms, lo + 1, n, holds);
    }
  }

  /** `Matches` read member by member, the way the brackets are built. */
  lemma MatchesByMembers(w: Where, n: Naming, holds: Holds)
    ensures Matches(w, n, holds) <==>
      && AllMatch(Members(w.and), 0, n, holds)
      && (AllEmpty(Members(w.or), 0) || SomeMatch(Members(w.or), 0, n, holds))
      && AttrsHold(w.attrs, n, holds)
  {
    AllMatchEvery(Members(w.and), 0, n, holds);
    AllEmptyEvery(Members(w.or), 0);
    SomeMatchExists(Members(w.or), 0, n, holds);
  }

  /** The bracket list is empty exactly when every member is `{}`. */
  lemma {:induction false} BracketedEmpty(w: Where, kind: GroupKind, i: nat, n: Naming, counter: nat)
    requires i <= |MembersOf(w, kind)|
    ensures |Bracketed(w, kind, i, n, counter).0| == 0 <==> AllEmpty(MembersOf(w, kind), i)
    decreases |MembersOf(w, kind)| - i
  {
    var ms := MembersOf(w, kind);
    if i < |ms| && IsEmptyObject(ms[i]) {
      BracketedEmpty(w, kind, i + 1, n, counter);
    }
  }

  /** One step of `Bracketed` over a non-empty member: its bracket, then
      the brackets of the members after it. */
  lemma BracketedTake(w: Where, kind: GroupKind, i: nat, n: Naming, counter: nat)
    requires i < |MembersOf(w, kind)| && !IsEmptyObject(MembersOf(w, kind)[i])
    ensures var c := Conds(MembersOf(w, kind)[i], n, counter);
            Bracketed(w, kind, i, n, counter).0 == [AndGroup(c.0)] + Bracketed(w, kind, i + 1, n, c.1).0
  {
  }

  /** `Bracketed` passes over a `{}` member without using the counter. */
  lemma BracketedSkip(w: Where, kind: GroupKind, i: nat, n: Naming, counter: nat)
    requires i < |MembersOf(w, kind)| && IsEmptyObject(MembersOf(w, kind)[i])
    ensures Bracketed(w, kind, i, n, counter) == Bracketed(w, kind, i + 1, n, counter)
  {
  }

  /** The AND reading of one step, given the meaning of the member's own
      conditions and of the brackets after it. */
  lemma BracketedAllTake(w: Where, kind: GroupKind, i: nat, n: Naming, counter: nat, holds: Holds)
    requires i < |MembersOf(w, kind)| && !IsEmptyObject(MembersOf(w, kind)[i])
    requires var c := Conds(MembersOf(w, kind)[i], n, counter);
             && (EvalAll(c.0, holds) <==> Matches(MembersOf(w, kind)[i], n, holds))
             && (EvalAll(Bracketed(w, kind, i + 1, n, c.1).0, holds) <==> AllMatch(MembersOf(w, kind), i + 1, n, holds))
    ensures EvalAll(Bracketed(w, kind, i, n, counter).0, holds) <==> AllMatch(MembersOf(w, kind), i, n, holds)
  {
    var c := Conds(MembersOf(w, kind)[i], n, counter);
    BracketedTake(w, kind, i, n, counter);
    EvalAllBracketCons(c.0, Bracketed(w, kind, i + 1, n, c.1).0, holds);
  }

  /** The OR reading of one step, given the same two facts. */
  lemma BracketedSomeTake(w: Where, kind: GroupKind, i: nat, n: Naming, counter: nat, holds: Holds)
    requires i < |MembersOf(w, kind)| && !IsEmptyObject(MembersOf(w, kind)[i])
    requires var c := Conds(MembersOf(w, kind)[i], n, counter);
             && (EvalAll(c.0, holds) <==> Matches(MembersOf(w, kind)[i], n, holds))
             && (AnyEval(Bracketed(w, kind, i + 1, n, c.1).0, holds) <==> SomeMatch(MembersOf(w, kind), i + 1, n, holds))
    ensures AnyEval(Bracketed(w, kind, i, n, counter).0, holds) <==> SomeMatch(MembersOf(w, kind), i, n, holds)
  {
    var c := Conds(MembersOf(w, kind)[i], n, counter);
    BracketedTake(w, kind, i, n, counter);
    AnyEvalBracketCons(c.0, Bracketed(w, kind, i + 1, n, c.1).0, holds);
  }

  /** The AND reading of a step over a `{}` member. */
  lemma BracketedAllSkip(w: Where, kind: GroupKind, i: nat, n: Naming, counter: nat, holds: Holds)
    requires i < |MembersOf(w, kind)| && IsEmptyObject(MembersOf(w, kind)[i])
    requires EvalAll(Bracketed(w, kind, i + 1, n, counter).0, holds) <==> AllMatch(MembersOf(w, kind), i + 1, n, holds)
    ensures EvalAll(Bracketed(w, kind, i, n, counter).0, holds) <==> AllMatch(MembersOf(w, kind), i, n, holds)
  {
    BracketedSkip(w, kind, i, n, counter);
    EmptyMatches(MembersOf(w, kind)[i], n, holds);
  }

  /** The OR reading of a step over a `{}` member. */
  lemma BracketedSomeSkip(w: Where, kind: GroupKind, i: nat, n: Naming, counter: nat, holds: Holds)
    requires i < |MembersOf(w, kind)| && IsEmptyObject(MembersOf(w, kind)[i])
    requires AnyEval(Bracketed(w, kind, i + 1, n, counter).0, holds) <==> SomeMatch(MembersOf(w, kind), i + 1, n, holds)
    ensures AnyEval(Bracketed(w, kind, i, n, counter).0, holds) <==> SomeMatch(MembersOf(w, kind), i, n, holds)
  {
    BracketedSkip(w, kind, i, n, counter);
  }

  /** The bracket list holds exactly when every member matches. */
  lemma {:induction false} BracketedAll(w: Where, kind: GroupKind, i: nat, n: Naming, counter: nat, holds: Holds)
    requires i <= |MembersOf(w, kind)|
    ensures EvalAll(Bracketed(w, kind, i, n, counter).0, holds) <==> AllMatch(MembersOf(w, kind), i, n, holds)
    decreases w, 0, |MembersOf(w, kind)| - i
  {
    var ms := MembersOf(w, kind);
    if i < |ms| {
      if IsEmptyObject(ms[i]) {
        BracketedAll(w, kind, i + 1, n, counter, holds);
        BracketedAllSkip(w, kind, i, n, counter, holds);
      } else {
        var c := Conds(ms[i], n, counter);
        CondsMeaning(ms[i], n, counter, holds);
        BracketedAll(w, kind, i + 1, n, c.1, holds);
        BracketedAllTake(w, kind, i, n, counter, holds);
      }
    }
  }

  /** Some bracket holds exactly when some non-empty member matches. */
  lemma {:induction false} BracketedSome(w: Where, kind: GroupKind, i: nat, n: Naming, counter: nat, holds: Holds)
    requires i <= |MembersOf(w, kind)|
    ensures AnyEval(Bracketed(w, kind, i, n, counter).0, holds) <==> SomeMatch(MembersOf(w, kind), i, n, holds)
    decreases w, 0, |MembersOf(w, kind)| - i
  {
    var ms := MembersOf(w, kind);
    if i < |ms| {
      if IsEmptyObject(ms[i]) {
        BracketedSome(w, kind, i + 1, n, counter, holds);
        BracketedSomeSkip(w, kind, i, n, counter, holds);
      } else {
        var c := Conds(ms[i], n, counter);
        CondsMeaning(ms[i], n, counter, holds);
        BracketedSome(w, kind, i + 1, n, c.1, holds);
        BracketedSomeTake(w, kind, i, n, counter, holds);
      }
    }
  }

  lemma {:induction false} AndGroupMeaning(w: Where, n: Naming, counter: nat, holds: Holds)
    ensures EvalAll(GroupConds(w, AndKind, n, counter).0, holds) <==> AllMatch(Members(w.and), 0, n, holds)
    decreases w, 1, 0
  {
    BracketedAll(w, AndKind, 0, n, counter, holds);
    var b := Bracketed(w, AndKind, 0, n, counter).0;
    assert MembersOf(w, AndKind) == Members(w.and);
    if |b| > 0 {
      assert GroupConds(w, AndKind, n, counter).0 == [AndGroup(b)];
      EvalAllSingle(AndGroup(b), holds);
    } else {
      BracketedEmpty(w, AndKind, 0, n, counter);
      AllEmptyMeaning(Members(w.and), 0, n, holds);
    }
  }

  lemma {:induction false} OrGroupMeaning(w: Where, n: Naming, counter: nat, holds: Holds)
    ensures EvalAll(GroupConds(w, OrKind, n, counter).0, holds) <==>
            AllEmpty(Members(w.or), 0) || SomeMatch(Members(w.or), 0, n, holds)
    decreases w, 1, 0
  {
    BracketedEmpty(w, OrKind, 0, n, counter);
    BracketedSome(w, OrKind, 0, n, counter, holds);
    var b := Bracketed(w, OrKind, 0, n, counter).0;
    if |b| > 0 {
      var g := GroupConds(w, OrKind, n, counter).0;
      assert g == [OrGroup(b)];
      EvalAllSingle(OrGroup(b), holds);
    } else {
      AllEmptyMeaning(Members(w.or), 0, n, holds);
    }
  }

  /** The conditions built from a filter object hold of a record exactly
      when the object matches it. */
  lemma {:induction false} CondsMeaning(w: Where, n: Naming, counter: nat, holds: Holds)
    ensures EvalAll(Conds(w, n, counter).0, holds) <==> Matches(w, n, holds)
    decreases w, 2, 0
  {
    var ands := GroupConds(w, AndKind, n, counter);
    var ors := GroupConds(w, OrKind, n, ands.1);
    var leaves := LeafConds(w.attrs, n, ors.1);
    AndGroupMeaning(w, n, counter, holds);
    OrGroupMeaning(w, n, ands.1, holds);
    EvalAllAppend(ands.0, ors.0, holds);
    EvalAllAppend(ands.0 + ors.0, leaves.0, holds);
    LeafCondsMeaning(w.attrs, n, ors.1, holds);
    MatchesByMembers(w, n, holds);
  }

  /** The bound-parameter names of a condition list, in order. */
  function Keys(qs: seq<Query>): seq<string>
    decreases qs
  {
    if |qs| == 0 then []
    else
      (match qs[0]
       case Leaf(_, _, k, _) => [k]
       case AndGroup(ms) => Keys(ms)
       case OrGroup(ms) => Keys(ms))
      + Keys(qs[1..])
  }

  lemma {:induction false} KeysAppend(a: seq<Query>, b: seq<Query>)
    ensures Keys(a + b) == Keys(a) + Keys(b)
    decreases |a|
  {
    if |a| == 0 {
      assert a + b == b;
    } else {
      assert (a + b)[0] == a[0];
      assert (a + b)[1..] == a[1..] + b;
      KeysAppend(a[1..], b);
    }
  }

  /** The names `prefix + lo`, ..., `prefix + (hi - 1)`. */
  function Numbered(n: Naming, lo: nat, hi: nat): (ks: seq<string>)
    requires lo <= hi
    ensures |ks| == hi - lo
    ensures forall i :: 0 <= i < hi - lo ==> ks[i] == ParamKey(n, lo + i)
  {
    seq(hi - lo, i requires 0 <= i < hi - lo => ParamKey(n, lo + i))
  }

  lemma NumberedAppend(n: Naming, lo: nat, mid: nat, hi: nat)
    requires lo <= mid <= hi
    ensures Numbered(n, lo, mid) + Numbered(n, mid, hi) == Numbered(n, lo, hi)
  {
  }

  /** Distinct counters give distinct parameter names. */
  lemma ParamKeyInjective(n: Naming, a: nat, b: nat)
    requires ParamKey(n, a) == ParamKey(n, b)
    ensures a == b
  {
    var p := n.paramKeyPrefix;
    assert ParamKey(n, a)[|p|..] == NatToDecimal(a);
    assert ParamKey(n, b)[|p|..] == NatToDecimal(b);
    NatToDecimalInjective(a, b);
  }

  lemma NumberedDistinct(n: Naming, lo: nat, hi: nat)
    requires lo <= hi
    ensures forall i, j | 0 <= i < j < hi - lo :: Numbered(n, lo, hi)[i] != Numbered(n, lo, hi)[j]
  {
    forall i, j | 0 <= i < j < hi - lo ensures Numbered(n, lo, hi)[i] != Numbered(n, lo, hi)[j] {
      if Numbered(n, lo, hi)[i] == Numbered(n, lo, hi)[j] {
        ParamKeyInjective(n, lo + i, lo + j);
      }
    }
  }

  /** Each comparison in the tree gets the next counter value, so the
      parameter names are exactly `prefix + counter` .. `prefix + (end - 1)`
      in tree order. */
  lemma {:induction false} CondsKeys(w: Where, n: Naming, counter: nat)
    ensures Keys(Conds(w, n, counter).0) == Numbered(n, counter, Conds(w, n, counter).1)
    decreases w, 2, 0
  {
    var ands := GroupConds(w, AndKind, n, counter);
    var ors := GroupConds(w, OrKind, n, ands.1);
    var leaves := LeafConds(w.attrs, n, ors.1);
    GroupKeys(w, AndKind, n, counter);
    GroupKeys(w, OrKind, n, ands.1);
    LeafKeys(w.attrs, n, ors.1);
    KeysAppend(ands.0, ors.0);
    KeysAppend(ands.0 + ors.0, leaves.0);
    NumberedAppend(n, counter, ands.1, ors.1);
    NumberedAppend(n, counter, ors.1, leaves.1);
  }

  lemma {:induction false} LeafKeys(attrs: seq<Attr>, n: Naming, counter: nat)
    ensures Keys(LeafConds(attrs, n, counter).0) == Numbered(n, counter, counter + |attrs|)
    decreases |attrs|
  {
    if |attrs| > 0 {
      var r := LeafConds(attrs, n, counter);
      var rest := LeafConds(attrs[1..], n, counter + 1);
      assert r.0 == [LeafFor(attrs[0], n, counter)] + rest.0;
      assert r.0[1..] == rest.0;
      LeafKeys(attrs[1..], n, counter + 1);
      NumberedAppend(n, counter, counter + 1, counter + |attrs|);
    }
  }

  lemma {:induction false} GroupKeys(w: Where, kind: GroupKind, n: Naming, counter: nat)
    ensures Keys(GroupConds(w, kind, n, counter).0) == Numbered(n, counter, GroupConds(w, kind, n, counter).1)
    decreases w, 1, 0
  {
    BracketedKeys(w, kind, 0, n, counter);
    var b := Bracketed(w, kind, 0, n, counter);
    if |b.0| > 0 {
      var g := GroupConds(w, kind, n, counter).0;
      assert g[1..] == [];
      assert Keys(g) == Keys(b.0) + Keys([]);
    }
  }

  lemma {:induction false} BracketedKeys(w: Where, kind: GroupKind, i: nat, n: Naming, counter: nat)
    requires i <= |MembersOf(w, kind)|
    ensures Keys(Bracketed(w, kind, i, n, counter).0) == Numbered(n, counter, Bracketed(w, kind, i, n, counter).1)
    decreases w, 0, |MembersOf(w, kind)| - i
  {
    var ms := MembersOf(w, kind);
    if i < |ms| {
      if IsEmptyObject(ms[i]) {
        BracketedKeys(w, kind, i + 1, n, counter);
      } else {
        var c := Conds(ms[i], n, counter);
        var rest := Bracketed(w, kind, i + 1, n, c.1);
        var qs := [AndGroup(c.0)] + rest.0;
        CondsKeys(ms[i], n, counter);
        BracketedKeys(w, kind, i + 1, n, c.1);
        assert qs[1..] == rest.0;
        NumberedAppend(n, counter, c.1, rest.1);
      }
    }
  }

  predicate HasKey(attrs: seq<Attr>, key: string)
  {
    exists i | 0 <= i < |attrs| :: attrs[i].key == key
  }

  /** Some top-level key starts with `deletedAt_`. */
  predicate HasDeletedAtKey(attrs: seq<Attr>)
  {
    exists i | 0 <= i < |attrs| :: StartsWith(attrs[i].key, "deletedAt_")
  }

  /** `delete where[key]`. */
  function RemoveKey(attrs: seq<Attr>, key: string): (r: seq<Attr>)
    ensures !HasKey(r, key)
    ensures forall a :: a in r <==> a in attrs && a.key != key
  {
    if |attrs| == 0 then []
    else (if attrs[0].key == key then [] else [attrs[0]]) + RemoveKey(attrs[1..], key)
  }

  lemma AllKeyIsDeletedAtKey(attrs: seq<Attr>)
    ensures HasKey(attrs, "deletedAt_all") ==> HasDeletedAtKey(attrs)
  {
    if HasKey(attrs, "deletedAt_all") {
      var i :| 0 <= i < |attrs| && attrs[i].key == "deletedAt_all";
      assert StartsWith(attrs[i].key, "deletedAt_");
    }
  }

  const DeletedAtField := "deletedAt"

  /** The entry the soft-delete default adds: `deletedAt_eq: null`. */
  const DeletedAtEq := Attr(DeletedAtField + "_" + "eq", Null)

  /** The soft-delete default, applied to the top-level keys only: without
      any `deletedAt_` key, soft-deleted rows are filtered out; a
      `deletedAt_all` key is dropped and adds no constraint; any other
      `deletedAt_` key is kept as written. */
  function ApplySoftDelete(w: Where): (r: Where)
    ensures r.and == w.and && r.or == w.or
    ensures !HasDeletedAtKey(w.attrs) ==> r.attrs == w.attrs + [DeletedAtEq]
    ensures HasKey(w.attrs, "deletedAt_all") ==>
      && !HasKey(r.attrs, "deletedAt_all")
      && !HasKey(r.attrs, "deletedAt_eq") == !HasKey(w.attrs, "deletedAt_eq")
      && (forall a :: a in r.attrs <==> a in w.attrs && a.key != "deletedAt_all")
    ensures HasDeletedAtKey(w.attrs) && !HasKey(w.attrs, "deletedAt_all") ==> r == w
  {
    if !HasDeletedAtKey(w.attrs) then
      AllKeyIsDeletedAtKey(w.attrs);
      w.(attrs := w.attrs + [DeletedAtEq])
    else if HasKey(w.attrs, "deletedAt_all") then
      var r := w.(attrs := RemoveKey(w.attrs, "deletedAt_all"));
      assert HasKey(r.attrs, "deletedAt_eq") <==> HasKey(w.attrs, "deletedAt_eq") by {
        if HasKey(w.attrs, "deletedAt_eq") {
          var i :| 0 <= i < |w.attrs| && w.attrs[i].key == "deletedAt_eq";
          assert w.attrs[i] in r.attrs;
        }
        if HasKey(r.attrs, "deletedAt_eq") {
          var i :| 0 <= i < |r.attrs| && r.attrs[i].key == "deletedAt_eq";
          assert r.attrs[i] in w.attrs;
        }
      }
      r
    else w
  }

  lemma AttrsHoldAppend(a: seq<Attr>, b: seq<Attr>, n: Naming, holds: Holds)
    ensures AttrsHold(a + b, n, holds) <==> AttrsHold(a, n, holds) && AttrsHold(b, n, holds)
  {
    if AttrsHold(a, n, holds) && AttrsHold(b, n, holds) {
      forall i | 0 <= i < |a + b| ensures LeafHolds((a + b)[i], n, holds) {
        if i >= |a| { assert (a + b)[i] == b[i - |a|]; }
      }
    }
    if AttrsHold(a + b, n, holds) {
      forall i | 0 <= i < |a| ensures LeafHolds(a[i], n, holds) {
        assert (a + b)[i] == a[i];
      }
      forall i | 0 <= i < |b| ensures LeafHolds(b[i], n, holds) {
        assert (a + b)[|a| + i] == b[i];
      }
    }
  }

  /** The added `deletedAt_eq: null` entry compares the `deletedAt` column
      with null. */
  lemma DeletedAtEqMeaning(n: Naming, holds: Holds)
    ensures AttrsHold([DeletedAtEq], n, holds) <==> holds(n.column("deletedAt"), "eq", Null)
  {
    SplitKeyOfFieldOp(DeletedAtField, "eq");
    assert [DeletedAtEq][0] == DeletedAtEq;
  }

  /** Without a `deletedAt_` key, the filter matches exactly the records it
      matched before that are not soft-deleted. */
  lemma SoftDeletedHiddenByDefault(w: Where, n: Naming, holds: Holds)
    requires !HasDeletedAtKey(w.attrs)
    ensures Matches(ApplySoftDelete(w), n, holds) <==>
            Matches(w, n, holds) && holds(n.column("deletedAt"), "eq", Null)
  {
    var r := ApplySoftDelete(w);
    assert r == Where(w.and, w.or, w.attrs + [DeletedAtEq]);
    AttrsHoldAppend(w.attrs, [DeletedAtEq], n, holds);
    DeletedAtEqMeaning(n, holds);
  }

  /** `buildFindQueryWithParams`' WHERE part: the soft-delete default, then
      the conditions of the resulting object, numbered from 0. */
  function BuildWhere(where: Where, n: Naming): (qs: seq<Query>)
    // no two comparisons share a bound parameter
    ensures forall i, j | 0 <= i < j < |Keys(qs)| :: Keys(qs)[i] != Keys(qs)[j]
  {
    var w := ApplySoftDelete(where);
    if KeyCount(w) > 0 then
      var c := Conds(w, n, 0);
      CondsKeys(w, n, 0);
      NumberedDistinct(n, 0, c.1);
      c.0
    else []
  }

  /** The built conditions hold of a record exactly when the filter, after
      the soft-delete default, matches it. */
  lemma BuildWhereMeaning(where: Where, n: Naming, holds: Holds)
    ensures EvalAll(BuildWhere(where, n), holds) <==> Matches(ApplySoftDelete(where), n, holds)
  {
    var w := ApplySoftDelete(where);
    if KeyCount(w) > 0 {
      CondsMeaning(w, n, 0, holds);
    }
  }

  /** `{AND: [{}, x]}` builds conditions equivalent to those of `x`: the
      empty member is discarded rather than read as true or false. */
  lemma EmptyAndMemberDiscarded(x: Where, n: Naming, counter: nat, holds: Holds)
    ensures EvalAll(Conds(Where(Present([EmptyWhere, x]), Absent, []), n, counter).0, holds)
        <==> EvalAll(Conds(x, n, counter).0, holds)
  {
    var w := Where(Present([EmptyWhere, x]), Absent, []);
    CondsMeaning(w, n, counter, holds);
    CondsMeaning(x, n, counter, holds);
    assert Matches(EmptyWhere, n, holds);
    assert Members(w.and)[1] == x;
  }

  /** An `{}` member of an OR list neither satisfies the disjunction nor
      blocks it: `{OR: [{}, x]}` with `x` non-empty means `x`. */
  lemma EmptyOrMemberDiscarded(x: Where, n: Naming, counter: nat, holds: Holds)
    requires !IsEmptyObject(x)
    ensures EvalAll(Conds(Where(Absent, Present([EmptyWhere, x]), []), n, counter).0, holds)
        <==> EvalAll(Conds(x, n, counter).0, holds)
  {
    var w := Where(Absent, Present([EmptyWhere, x]), []);
    CondsMeaning(w, n, counter, holds);
    CondsMeaning(x, n, counter, holds);
    assert Members(w.or)[1] == x;
  }
}

=== FILE: wrappers.dfy ===
/** Failure-carrying datatypes shared by the model: an optional value (a
    JavaScript `undefined`-or-value) and a result that is either a value or
    the error the source would throw. */
module Wrappers {

  datatype Option<+T> = None | Some(value: T) {

    /** The value, or `default` when absent (the `??` operator). */
    function GetOr(default: T): T {
      match this
      case Some(v) => v
      case None => default
    }
  }

  datatype Result<+R, +E> = Success(value: R) | Failure(error: E) {

    predicate IsFailure() {
      Failure?
    }

    function PropagateFailure<U>(): Result<U, E>
      requires Failure?
    {
      Failure(error)
    }

    function Extract(): R
      requires Success?
    {
      value
    }
  }

  /** JavaScript `x || fallback` on an optional number: absent and 0 are
      falsy. */
  function OrElse(x: Option<int>, fallback: int): int
  {
    if x.Some? && x.value != 0 then x.value else fallback
  }

  /** JavaScript truthiness of an optional string: absent and `""` are
      falsy. */
  predicate Truthy(s: Option<string>)
  {
    s.Some? && s.value != ""
  }
}
